=== FILE: README.md ===
# Wallpaper command model

A Dafny model of the Linux wallpaper logic in `src-tauri/src/wallpaper.rs`.
That logic turns an image path into a desktop-shell command and starts it.
It covers:

- `escape_path`, which puts a backslash before 22 shell metacharacters;
- the backend choice in `change_wallpaper`: a fixed table of desktop
  sessions, then probing `nitrogen`, then `feh`;
- the six command templates of `LinuxWallpaperCommand::command`;
- the split in `execute`: trim, split on whitespace, first piece is the
  program;
- the temporary file that `change_wallpaper_url` downloads to, named
  `/tmp/wallpaper.<n>.<ext>`;
- the suffix test that picks the encoder in `save_wallpaper`.

Everything is a pure function over strings and datatypes. What the system
answers is passed in as data:

- the session variable, as an `Option<string>`;
- whether `nitrogen --version` and `feh --version` start;
- whether the spawn succeeds, and whether each download or file step
  succeeds, as optional error texts;
- the random `u64`.

Modules, one per file:

| file | module | contents |
|---|---|---|
| outcomes.dfy | `Outcomes` | `Option`, `Result` |
| seqs.dfy | `Seqs` | concatenation facts stated once for any element type |
| text.dfy | `Text` | prefix/suffix tests, Unicode `White_Space`, decimal rendering of an unsigned integer |
| escape.dfy | `ShellEscape` | `escape_path`, its inverse, the shape of its outputs |
| tokenize.dfy | `Tokenize` | `trim`, `split_whitespace`, the program/argument split of `execute` |
| paths.dfy | `PathNames` | `Path::file_name` and `Path::extension` for Unix paths |
| backends.dfy | `Backends` | the six backends and their selection |
| commands.dfy | `Commands` | the templates, what the started program receives, reading the path back |
| save.dfy | `Save` | the encoder choice and the error paths of `save_wallpaper` |
| dispatch.dfy | `Dispatch` | `execute`, `change_wallpaper`, `change_wallpaper_url` |

Modelling decisions:

- **Panics are error values.** Three things panic in the source:
  - the `unwrap` of an unset `XDG_CURRENT_DESKTOP`, modelled as
    `DesktopUnset`;
  - the `panic!` when no tool is found, modelled as `NoSupportedCommand`;
  - the `unwrap`s of the JPEG encoder, modelled as `JpegPanic`.

  Every `Err(String)` keeps the source's exact message.
- **Templates are word lists.** Each template is written as a list of
  words joined by single spaces, with the path's word in its place. This
  is the same text the `format!` strings produce. In the KDE template, the
  string's line continuations drop the line break and the next line's
  indentation.
- **The split knows no shell.** `Command::new(..).args(..)` does not go
  through a shell. So the started program receives exactly the
  whitespace-separated pieces: quotes and escaping backslashes included.
  The model states this as behaviour:
  - `escape_path` output reaches `swaybg`, `feh`, etc. with its
    backslashes;
  - a path containing a space is split in two even after escaping.
- **Extensions follow Rust's `Path`.** A URL is handed whole to
  `Path::new`, so the model follows the standard library's rules:
  - trailing `/` and `.` components are skipped;
  - `..` has no file name;
  - a name whose only dot comes first has no extension;
  - a name ending in `.` has the empty extension.

  So a URL ending in `image.` gives the temporary path
  `/tmp/wallpaper.<n>.`: the temporary path can end in a bare `.`.
- **Whitespace is Unicode `White_Space`**, which is what `char::is_whitespace`,
  `str::trim` and `str::split_whitespace` use.

## Model

| member | source | states |
|---|---|---|
| ShellEscape.EscapeChar | src-tauri/src/wallpaper.rs:44-47 | one input character becomes two output characters exactly when it is special, and the input character always comes last |
| ShellEscape.Escape | src-tauri/src/wallpaper.rs:36-51 | the output is longer than the path by the number of special characters; a path without special characters comes back unchanged; only the empty path escapes to the empty string |
| ShellEscape.EscapePath | src-tauri/src/wallpaper.rs:41-50 | the push loop (optional backslash, then the character) builds exactly the escaped path |
| ShellEscape.EscapeIdentityIff | src-tauri/src/wallpaper.rs:36-51 | escaping leaves a path unchanged if and only if the path has no special character |
| ShellEscape.EscapeConcat | src-tauri/src/wallpaper.rs:43-48 | escaping works character by character: the escape of a concatenation is the concatenation of the escapes |
| ShellEscape.UnescapeEscape | src-tauri/src/wallpaper.rs:43-48 | deleting every backslash that stands before a character recovers the original path |
| ShellEscape.EscapeInjective | src-tauri/src/wallpaper.rs:43-48 | two different paths never escape to the same text |
| ShellEscape.EscapeUnescape | src-tauri/src/wallpaper.rs:37-48 | on well-escaped text, escaping the unescaped text gives the text back |
| ShellEscape.EscapeImage | src-tauri/src/wallpaper.rs:37-48 | a text is an output of the escaper if and only if it is a run of non-special characters and backslash-special pairs |
| ShellEscape.EscapeKeepsWhitespace | src-tauri/src/wallpaper.rs:37-48 | the escaped path contains whitespace if and only if the path does |
| Tokenize.Words | src-tauri/src/wallpaper.rs:89 | every piece of the whitespace split is non-empty and whitespace-free |
| Tokenize.TrimStart | src-tauri/src/wallpaper.rs:89 | the result is a suffix of the input, everything removed is whitespace, and the result does not start with whitespace |
| Tokenize.TrimEnd | src-tauri/src/wallpaper.rs:89 | the result is a prefix of the input, everything removed is whitespace, and the result does not end with whitespace |
| Tokenize.Trim | src-tauri/src/wallpaper.rs:89 | the result is the slice of the input between a run of leading and a run of trailing whitespace, starts and ends with a non-whitespace character (or is empty), and splits into the same words as the input |
| Tokenize.Tokenise | src-tauri/src/wallpaper.rs:88-91 | fails with "Command was empty" exactly when the command is empty or all whitespace; otherwise program and arguments are words and together hold every non-whitespace character, in order |
| Tokenize.TokeniseOfSplit | src-tauri/src/wallpaper.rs:89-91 | the program is the first piece of the whitespace split and the arguments are the remaining pieces in order |
| Tokenize.WordsEmpty | src-tauri/src/wallpaper.rs:89-90 | the split is empty if and only if the text is all whitespace |
| Tokenize.WordsVisible | src-tauri/src/wallpaper.rs:89 | the pieces, put back together, are the text's non-whitespace characters in order |
| Tokenize.WordsSeparated | src-tauri/src/wallpaper.rs:89 | a whitespace character splits the text into the pieces of its two sides |
| Tokenize.WordsSingle | src-tauri/src/wallpaper.rs:89 | a text splits into exactly itself if and only if it is a non-empty whitespace-free word |
| Tokenize.WordsUnwords | src-tauri/src/wallpaper.rs:89 | splitting words joined by single spaces gives the words back |
| Tokenize.EscapedSpaceSplits | src-tauri/src/wallpaper.rs:88-91 | the command `a\ b` starts program `a\` with the single argument `b`: the split ignores the escape |
| Backends.SessionBackend | src-tauri/src/wallpaper.rs:108-114 | a session name selects a backend exactly when it is one of the six listed names, and never selects a tool backend |
| Backends.Detect | src-tauri/src/wallpaper.rs:107-125 | a listed session picks a non-tool backend and runs no probe; an unlisted one runs probes; failures are never string errors; feh and "no tool" each come only after probing nitrogen and then feh |
| Backends.DetectPreimage | src-tauri/src/wallpaper.rs:108-123 | for each backend and each failure, exactly which session and probe answers lead to it |
| Backends.ListedSessionIgnoresProbes | src-tauri/src/wallpaper.rs:108-114 | for a listed session, the outcome does not depend on which tools are installed, and nothing is probed |
| Backends.NitrogenBeforeFeh | src-tauri/src/wallpaper.rs:115-120 | for an unlisted session with nitrogen present, nitrogen is chosen and feh is never probed |
| Backends.SessionMatchIsCaseSensitive | src-tauri/src/wallpaper.rs:108-123 | `gnome` and `kde` are not listed sessions, so they fall through to probing |
| Commands.LeadWordsAreWords | src-tauri/src/wallpaper.rs:59-84 | every fixed word before the path in every template is a non-empty, whitespace-free word |
| Commands.CommandArgv | src-tauri/src/wallpaper.rs:54-91 | for every backend and path: the started program is the template's first word; the arguments are the other fixed words, then the path's word split on whitespace, then the trailing `}'` for KDE |
| Commands.PathWordIsOneWord | src-tauri/src/wallpaper.rs:56-85 | the path reaches the program as one argument if and only if it has no whitespace (and, for escaping backends, is not empty) |
| Commands.EscapedPathArgument | src-tauri/src/wallpaper.rs:63-84 | for xfconf, swaybg, nitrogen and feh, a non-empty whitespace-free path arrives as the single last argument, escaped; it equals the path only if the path has no special character |
| Commands.EscapedSpaceStillSplits | src-tauri/src/wallpaper.rs:78-91 | for the escaping backends, a path `x y` arrives as two arguments: the escaped `x` followed by a backslash, then the escaped `y` |
| Commands.Command | src-tauri/src/wallpaper.rs:54-86 | every command is the backend's fixed prefix, then the raw path (GSettings, KDE) or the escaped path (others), then the fixed suffix |
| Commands.CommandStartsWithProgram | src-tauri/src/wallpaper.rs:58-85 | every command starts with its program's name followed by a space |
| Commands.ExtractPathIff | src-tauri/src/wallpaper.rs:54-85 | reading the path back out of a command line gives `p` if and only if the command is the one formed for `p` |
| Commands.CommandInjective | src-tauri/src/wallpaper.rs:54-85 | different paths give different command lines for the same backend |
| PathNames.FileName | src-tauri/src/wallpaper.rs:153-154 | a file name, when there is one, is a non-empty component other than `.` and `..`, with no slash; the empty path, `.` and `..` have none |
| PathNames.FileNameAfterSlash | src-tauri/src/wallpaper.rs:153-154 | a path ending in `/name` has file name `name`, whatever precedes it |
| PathNames.FileNameTrailingSlash | src-tauri/src/wallpaper.rs:153-154 | a trailing `/` does not change the file name |
| PathNames.FileNameTrailingDot | src-tauri/src/wallpaper.rs:153-154 | a trailing `/.` does not change the file name |
| PathNames.FileNameParentDir | src-tauri/src/wallpaper.rs:153-154 | a path ending in `/..` has no file name |
| PathNames.FileNameOfName | src-tauri/src/wallpaper.rs:153-154 | a non-empty, slash-free name other than `.` and `..` is its own file name |
| PathNames.NameExtensionIff | src-tauri/src/wallpaper.rs:154 | a file name has extension `ext` if and only if it is a non-empty stem, a dot, and a dot-free `ext` |
| PathNames.NameExtension | src-tauri/src/wallpaper.rs:154 | an extension is a dot-free part shorter than the name; there is none exactly when the name is empty or has no dot after its first character |
| PathNames.Extension | src-tauri/src/wallpaper.rs:154 | an extension contains no dot and no slash |
| PathNames.ExtensionAfterSlash | src-tauri/src/wallpaper.rs:153-154 | a path ending in `/name` has exactly the extension of `name`, or none when `name` has none |
| Text.Decimal | src-tauri/src/wallpaper.rs:157 | the rendering of a number is a non-empty digit string without leading zeros, one digit long exactly for numbers below ten |
| Text.DecimalRoundTrip | src-tauri/src/wallpaper.rs:157 | reading back the decimal rendering of a number gives the number |
| Save.SaveEncoder | src-tauri/src/wallpaper.rs:259-286 | PNG exactly when the path ends in `.png`; otherwise JPEG exactly when it ends in `.jpg` or `.jpeg`; otherwise the error "Unsupported file extension: " followed by the path |
| Save.SaveWallpaper | src-tauri/src/wallpaper.rs:258-288 | success reports the encoder the suffix test chose; PNG failures carry the first failing step's message; a JPEG save succeeds unless the encoder fails, which panics |
| Save.SuffixTestIsCaseSensitive | src-tauri/src/wallpaper.rs:259-285 | `wall.PNG` and `wall.JPG` are refused |
| Save.SaveEncoderFollowsExtension | src-tauri/src/wallpaper.rs:259-273 | for a path `dir/stem.ext`, the extension is `ext`, PNG is chosen exactly for `png`, and JPEG exactly for `jpg` and `jpeg` |
| Save.HiddenPngIsSavedAsPng | src-tauri/src/wallpaper.rs:259 | the hidden file `/img/.png` has no extension yet is saved as PNG: the suffix test and the extension disagree |
| Dispatch.Execute | src-tauri/src/wallpaper.rs:88-98 | succeeds exactly when the command is not blank and the spawn succeeds, starting the tokenised program; otherwise "Command was empty" or "Failed to execute command: " followed by the spawn error |
| Dispatch.ExecuteCommand | src-tauri/src/wallpaper.rs:88-98 | for a backend's command, `execute` fails only when the spawn fails, never with "Command was empty" |
| Dispatch.ChangeWallpaper | src-tauri/src/wallpaper.rs:103-133 | detection failures pass through; otherwise the backend's program starts with the arguments of `CommandArgv`, or the spawn error comes back wrapped in both messages |
| Dispatch.GnomeArgv | src-tauri/src/wallpaper.rs:103-133 | on GNOME, a whitespace-free path is handed to `gsettings` as the single argument `"file://<path>"`, quotes included |
| Dispatch.UrlExtension | src-tauri/src/wallpaper.rs:153-154 | the URL's extension when it has one, else `jpg`; never containing a dot or a slash |
| Dispatch.TempStem | src-tauri/src/wallpaper.rs:157 | the name is `wallpaper.` followed by the decimal digits of `n`: what follows the prefix is all digits, reads back as `n`, and starts with `0` only when it is the single digit `0`; the name has no slash |
| Dispatch.TempPath | src-tauri/src/wallpaper.rs:153-157 | the file lies directly in `/tmp`, and its name is the stem, a dot, and the URL's extension; `Path::extension` of the result is the URL's extension (or `jpg`) |
| Dispatch.TempPathInjective | src-tauri/src/wallpaper.rs:157 | different random numbers give different temporary paths |
| Dispatch.TempPathDefaultsToJpg | src-tauri/src/wallpaper.rs:154-157 | a URL without extension gives a path ending in `.jpg`, which the save dispatch sends to JPEG |
| Dispatch.UrlWithoutDotIsJpg | src-tauri/src/wallpaper.rs:153-154 | a URL whose final name has no dot gets the default extension `jpg` |
| Dispatch.UrlExtensionOfName | src-tauri/src/wallpaper.rs:153-154 | the extension is what follows the last dot of the text after the last slash of the whole URL |
| Dispatch.UrlQueryInExtension | src-tauri/src/wallpaper.rs:153-154 | a query string is kept: `h/a.png?s=1` has extension `png?s=1` |
| Dispatch.UrlHostAsFileName | src-tauri/src/wallpaper.rs:153-154 | a URL with no path after the host takes the host's last label as extension |
| Dispatch.UrlTrailingDot | src-tauri/src/wallpaper.rs:153-157 | a URL ending in `name.` has the empty extension, and the temporary path then ends in `.` |
| Dispatch.ChangeWallpaperUrl | src-tauri/src/wallpaper.rs:145-168 | the download steps run in order and the first failure decides the message; when all succeed, the result is `change_wallpaper` on the temporary path |
| Dispatch.DownloadFailureSkipsDetection | src-tauri/src/wallpaper.rs:145-164 | a failed download ends the call before detection: the result does not depend on the environment and is a string error |

## Left out

- Spawning processes: `Command::spawn` and the `--version` probes. What they report is an input: two booleans, and an optional spawn error.
- The `println!` logging in `change_wallpaper`: output only.
- The HTTP download, reading the body, and creating, writing and flushing files. The error each step can report is an input; the bytes are not modelled.
- The random number generator: the `u64` is a parameter.
- PNG and JPEG encoding and the image itself. Only the encoder choice and the error paths are modelled, so the `as u16` narrowing of the image size is not.
- Save.SaveWallpaper: reports only which encoder ran; the pixel data written is not modelled.
- `OsStr::to_str` in the extension lookup: a URL is always valid Unicode, so it never fails.
- A non-Unicode `XDG_CURRENT_DESKTOP` makes `env::var` fail just as an unset one does. Both are `DesktopUnset`.
- The tauri commands, which are locking, task spawning and field assignment around calls into the modelled functions:
  - `set_base_wallpaper_path` calls `change_wallpaper(path)` twice;
  - `set_base_wallpaper_url` calls `change_wallpaper_url(url)` once, then `change_wallpaper` with the raw URL as the image path.
- The Windows and macOS `change_wallpaper` and `change_wallpaper_url`. They are thin wrappers over the `wallpaper` crate, and both conditions in their `cfg` attributes must hold, so they are never compiled.
- `src-tauri/src/draw.rs` and `src-tauri/src/main.rs` are not part of this model.

=== FILE: backends.dfy ===
/**
 * The six Linux wallpaper backends (`LinuxWallpaperCommand` in
 * src-tauri/src/wallpaper.rs) and how `change_wallpaper` picks one: the
 * desktop-session name is looked up in a fixed table; when it is not
 * listed, the `nitrogen` and then the `feh` tool are probed.
 */
module Backends {
  import opened Outcomes

  datatype Backend = GSettings | XfConf | DbusPlasma | SwayBG | Nitrogen | Feh

  /** A tool whose presence `change_wallpaper` checks by running `<tool> --version`. */
  datatype Probe = ProbeNitrogen | ProbeFeh

  /**
   * Why no command could be issued. The first two are panics (the `unwrap`
   * of the unset `XDG_CURRENT_DESKTOP` variable, and the `panic!` when no
   * tool is found); `Message` is an `Err(String)` the source returns to its
   * caller.
   */
  datatype WallpaperError = DesktopUnset | NoSupportedCommand | Message(text: string)

  /** The session names the source recognises, with the backend each one selects. */
  function SessionBackend(desktop: string): (r: Option<Backend>)
    ensures r.Some? <==> desktop in ListedSessions
    ensures r.Some? ==> !IsToolBackend(r.value)
  {
    match desktop
    case "GNOME" => Some(GSettings)
    case "ubuntu:GNOME" => Some(GSettings)
    case "XFCE" => Some(XfConf)
    case "KDE" => Some(DbusPlasma)
    case "sway" => Some(SwayBG)
    case "Hyprland" => Some(SwayBG)
    case _ => None
  }

  /** The listed session names, as a set. */
  const ListedSessions: set<string> := {"GNOME", "ubuntu:GNOME", "XFCE", "KDE", "sway", "Hyprland"}

  /** A tool backend is one chosen by probing rather than by session name. */
  predicate IsToolBackend(b: Backend) {
    b == Nitrogen || b == Feh
  }

  /** What detection decided, and which tools it ran to decide it, in order. */
  datatype Detection = Detection(outcome: Result<Backend, WallpaperError>, probes: seq<Probe>)

  /**
   * The backend selection of Linux `change_wallpaper`. `desktop` is the
   * value of `XDG_CURRENT_DESKTOP` (`None` when it is unset or not valid
   * Unicode); `nitrogenRuns` and `fehRuns` say whether `<tool> --version`
   * could be started.
   */
  function Detect(desktop: Option<string>, nitrogenRuns: bool, fehRuns: bool): (d: Detection)
    ensures d.outcome.Ok? && !IsToolBackend(d.outcome.value) <==>
            desktop.Some? && desktop.value in ListedSessions
    ensures d.probes != [] <==> desktop.Some? && desktop.value !in ListedSessions
    ensures d.outcome.Err? ==> !d.outcome.error.Message?
    ensures d.outcome == Err(NoSupportedCommand) ==> d.probes == [ProbeNitrogen, ProbeFeh]
    ensures d.outcome == Ok(Feh) ==> d.probes == [ProbeNitrogen, ProbeFeh]
  {
    match desktop
    case None => Detection(Err(DesktopUnset), [])
    case Some(name) =>
      match SessionBackend(name)
      case Some(b) => Detection(Ok(b), [])
      case None =>
        if nitrogenRuns then Detection(Ok(Nitrogen), [ProbeNitrogen])
        else if fehRuns then Detection(Ok(Feh), [ProbeNitrogen, ProbeFeh])
        else Detection(Err(NoSupportedCommand), [ProbeNitrogen, ProbeFeh])
  }

  /**
   * The fixed table, read backwards: which inputs select each backend.
   * A listed session name never depends on the probes.
   */
  lemma DetectPreimage(desktop: Option<string>, nitrogenRuns: bool, fehRuns: bool)
    ensures var r := Detect(desktop, nitrogenRuns, fehRuns).outcome;
      && (r == Ok(GSettings) <==> desktop == Some("GNOME") || desktop == Some("ubuntu:GNOME"))
      && (r == Ok(XfConf) <==> desktop == Some("XFCE"))
      && (r == Ok(DbusPlasma) <==> desktop == Some("KDE"))
      && (r == Ok(SwayBG) <==> desktop == Some("sway") || desktop == Some("Hyprland"))
      && (r == Ok(Nitrogen) <==>
            desktop.Some? && desktop.value !in ListedSessions && nitrogenRuns)
      && (r == Ok(Feh) <==>
            desktop.Some? && desktop.value !in ListedSessions && !nitrogenRuns && fehRuns)
      && (r == Err(NoSupportedCommand) <==>
            desktop.Some? && desktop.value !in ListedSessions && !nitrogenRuns && !fehRuns)
      && (r == Err(DesktopUnset) <==> desktop.None?)
  {
  }

  /** A listed session name selects its backend without running any tool. */
  lemma ListedSessionIgnoresProbes(name: string, n1: bool, f1: bool, n2: bool, f2: bool)
    requires name in ListedSessions
    ensures Detect(Some(name), n1, f1) == Detect(Some(name), n2, f2)
    ensures Detect(Some(name), n1, f1).probes == []
  {
  }

  /** When both tools are installed, nitrogen wins and feh is never probed. */
  lemma NitrogenBeforeFeh(name: string, fehRuns: bool)
    requires name !in ListedSessions
    ensures Detect(Some(name), true, fehRuns) == Detection(Ok(Nitrogen), [ProbeNitrogen])
  {
  }

  /** The session match is exact: a name differing only in case is not listed. */
  lemma SessionMatchIsCaseSensitive()
    ensures Detect(Some("gnome"), false, false).outcome == Err(NoSupportedCommand)
    ensures Detect(Some("kde"), false, true).outcome == Ok(Feh)
  {
  }
}

=== FILE: commands.dfy ===
/**
 * `LinuxWallpaperCommand::command` (src-tauri/src/wallpaper.rs): each
 * backend formats one command line around the image path. GSettings and
 * DbusPlasma embed the path as given; the other four embed the escaped
 * path. The line is then split by `Tokenize.Tokenise`, not by a shell.
 *
 * Every format string of the source separates its words by exactly one
 * space (the KDE script's line continuations leave one space each), so a
 * command line is written here as its words joined by single spaces.
 */
module Commands {
  import opened Text
  import opened Outcomes
  import opened ShellEscape
  import opened Tokenize
  import opened Backends
  import opened Seqs

  /** The backends whose command carries the escaped path. */
  predicate EscapesPath(b: Backend) {
    b == XfConf || b == SwayBG || b == Nitrogen || b == Feh
  }

  /** The path as it appears inside the command line. */
  function EmbeddedPath(b: Backend, path: string): string {
    if EscapesPath(b) then Escape(path) else path
  }

  /** The words of the template before the path's word, program first. */
  function LeadWords(b: Backend): (ws: seq<string>)
    ensures 1 <= |ws|
  {
    match b
    case GSettings => ["gsettings", "set", "org.gnome.desktop.background", "picture-uri"]
    case XfConf =>
      ["xfconf-query", "-c", "xfce4-desktop", "-p", "/backdrop/screen0/monitor0/image-path", "-s"]
    case DbusPlasma => PlasmaWords0 + PlasmaWords1 + PlasmaWords2 + PlasmaWords3
    case SwayBG => ["swaybg", "-i"]
    case Nitrogen => ["nitrogen", "--set-zoom-fill"]
    case Feh => ["feh", "--bg-fill"]
  }

  // The KDE template's leading words: the qdbus call and the script up to
  // the `writeConfig` call whose argument holds the path.
  const PlasmaWords0: seq<string> :=
    ["qdbus", "org.kde.plasmashell", "/PlasmaShell", "org.kde.PlasmaShell.evaluateScript",
     "'string:var", "Desktops"]
  const PlasmaWords1: seq<string> :=
    ["=", "desktops();", "for", "(i=0;i<Desktops.length;i++)", "{", "d"]
  const PlasmaWords2: seq<string> :=
    ["=", "Desktops[i];", "d.wallpaperPlugin", "=", "\"org.kde.image\";", "d.currentConfigGroup"]
  const PlasmaWords3: seq<string> :=
    ["=", "Array(\"Wallpaper\",", "\"org.kde.image\",", "\"General\");", "d.writeConfig(\"Image\","]

  /** The text glued to the front of the path inside its word. */
  function Opening(b: Backend): string {
    if EscapesPath(b) then "" else "\"file://"
  }

  /** The text glued to the back of the path inside its word. */
  function Closing(b: Backend): string {
    match b
    case GSettings => "\""
    case DbusPlasma => "\")"
    case _ => ""
  }

  /**
   * The word holding the path: `"file://<path>"` for GSettings,
   * `"file://<path>")` for DbusPlasma, the escaped path for the others.
   */
  function PathWord(b: Backend, path: string): string {
    Opening(b) + EmbeddedPath(b, path) + Closing(b)
  }

  /** The words of the template after the path's word. */
  function TrailWords(b: Backend): seq<string> {
    if b == DbusPlasma then ["}'"] else []
  }

  /**
   * The command line `LinuxWallpaperCommand::command` returns: the template's
   * words joined by single spaces. Whatever the path, the line is the
   * backend's fixed prefix, then the path (raw for GSettings and DbusPlasma,
   * escaped for the others), then the fixed suffix.
   */
  function Command(b: Backend, path: string): (c: string)
    ensures c == CommandPrefix(b) + EmbeddedPath(b, path) + CommandSuffix(b)
  {
    var tail := if TrailWords(b) == [] then "" else " " + "}'";
    UnwordsOfTemplate(LeadWords(b), PathWord(b, path), TrailWords(b));
    Regroup(Unwords(LeadWords(b)) + " ", Opening(b), EmbeddedPath(b, path), Closing(b), tail);
    Unwords(LeadWords(b) + [PathWord(b, path)] + TrailWords(b))
  }

  /** The program each backend starts. */
  function ProgramName(b: Backend): string {
    LeadWords(b)[0]
  }

  // ---- the template's fixed words are words ----

  // Each literal word of the templates is printable ASCII, hence a word.
  // The words are checked a few at a time: scanning many literal characters
  // in one proof is what makes such proofs expensive.

  lemma QdbusCallWords()
    ensures IsWord("qdbus") && IsWord("/PlasmaShell") && IsWord("'string:var") && IsWord("Desktops")
  {
    AsciiGraphicNoWhitespace("qdbus");
    AsciiGraphicNoWhitespace("/PlasmaShell");
    AsciiGraphicNoWhitespace("'string:var");
    AsciiGraphicNoWhitespace("Desktops");
  }

  lemma PlasmaShellWord()
    ensures IsWord("org.kde.plasmashell")
  {
    AsciiGraphicNoWhitespace("org.kde.plasmashell");
  }

  lemma EvaluateScriptWord()
    ensures IsWord("org.kde.PlasmaShell.evaluateScript")
  {
    AsciiGraphicNoWhitespace("org.kde.PlasmaShell.evaluateScript");
  }

  lemma LoopWords()
    ensures IsWord("=") && IsWord("desktops();") && IsWord("for") && IsWord("{") && IsWord("d")
  {
    AsciiGraphicNoWhitespace("=");
    AsciiGraphicNoWhitespace("desktops();");
    AsciiGraphicNoWhitespace("for");
    AsciiGraphicNoWhitespace("{");
    AsciiGraphicNoWhitespace("d");
  }

  lemma LoopHeaderWord()
    ensures IsWord("(i=0;i<Desktops.length;i++)")
  {
    AsciiGraphicNoWhitespace("(i=0;i<Desktops.length;i++)");
  }

  lemma PluginWords()
    ensures IsWord("=") && IsWord("Desktops[i];") && IsWord("d.wallpaperPlugin")
  {
    AsciiGraphicNoWhitespace("=");
    AsciiGraphicNoWhitespace("Desktops[i];");
    AsciiGraphicNoWhitespace("d.wallpaperPlugin");
  }

  lemma ConfigGroupWords()
    ensures IsWord("\"org.kde.image\";") && IsWord("d.currentConfigGroup")
  {
    AsciiGraphicNoWhitespace("\"org.kde.image\";");
    AsciiGraphicNoWhitespace("d.currentConfigGroup");
  }

  lemma ConfigArrayWords()
    ensures IsWord("=") && IsWord("Array(\"Wallpaper\",")
  {
    AsciiGraphicNoWhitespace("=");
    AsciiGraphicNoWhitespace("Array(\"Wallpaper\",");
  }

  lemma ConfigKeyWords()
    ensures IsWord("\"org.kde.image\",") && IsWord("\"General\");")
  {
    AsciiGraphicNoWhitespace("\"org.kde.image\",");
    AsciiGraphicNoWhitespace("\"General\");");
  }

  lemma WriteConfigWord()
    ensures IsWord("d.writeConfig(\"Image\",")
  {
    AsciiGraphicNoWhitespace("d.writeConfig(\"Image\",");
  }

  lemma GSettingsShortWords()
    ensures IsWord("gsettings") && IsWord("set") && IsWord("picture-uri")
  {
    AsciiGraphicNoWhitespace("gsettings");
    AsciiGraphicNoWhitespace("set");
    AsciiGraphicNoWhitespace("picture-uri");
  }

  lemma GSettingsSchemaWord()
    ensures IsWord("org.gnome.desktop.background")
  {
    AsciiGraphicNoWhitespace("org.gnome.desktop.background");
  }

  lemma XfConfShortWords()
    ensures IsWord("xfconf-query") && IsWord("-c") && IsWord("xfce4-desktop") && IsWord("-p") && IsWord("-s")
  {
    AsciiGraphicNoWhitespace("xfconf-query");
    AsciiGraphicNoWhitespace("-c");
    AsciiGraphicNoWhitespace("xfce4-desktop");
    AsciiGraphicNoWhitespace("-p");
    AsciiGraphicNoWhitespace("-s");
  }

  lemma XfConfPropertyWord()
    ensures IsWord("/backdrop/screen0/monitor0/image-path")
  {
    AsciiGraphicNoWhitespace("/backdrop/screen0/monitor0/image-path");
  }

  lemma SwayBGWords()
    ensures IsWord("swaybg") && IsWord("-i") && IsWord("feh") && IsWord("--bg-fill")
  {
    AsciiGraphicNoWhitespace("swaybg");
    AsciiGraphicNoWhitespace("-i");
    AsciiGraphicNoWhitespace("feh");
    AsciiGraphicNoWhitespace("--bg-fill");
  }

  lemma NitrogenWords()
    ensures IsWord("nitrogen") && IsWord("--set-zoom-fill")
  {
    AsciiGraphicNoWhitespace("nitrogen");
    AsciiGraphicNoWhitespace("--set-zoom-fill");
  }

  lemma PlasmaWords0AreWords()
    ensures AllWords(PlasmaWords0)
  {
    QdbusCallWords();
    PlasmaShellWord();
    EvaluateScriptWord();
  }

  lemma PlasmaWords1AreWords()
    ensures AllWords(PlasmaWords1)
  {
    LoopWords();
    LoopHeaderWord();
  }

  lemma PlasmaWords2AreWords()
    ensures AllWords(PlasmaWords2)
  {
    PluginWords();
    ConfigGroupWords();
  }

  lemma PlasmaWords3AreWords()
    ensures AllWords(PlasmaWords3)
  {
    ConfigArrayWords();
    ConfigKeyWords();
    WriteConfigWord();
  }

  lemma GSettingsWordsAreWords()
    ensures AllWords(LeadWords(GSettings))
  {
    GSettingsShortWords();
    GSettingsSchemaWord();
  }

  lemma XfConfWordsAreWords()
    ensures AllWords(LeadWords(XfConf))
  {
    XfConfShortWords();
    XfConfPropertyWord();
  }

  lemma ToolWordsAreWords()
    ensures AllWords(LeadWords(SwayBG))
    ensures AllWords(LeadWords(Nitrogen))
    ensures AllWords(LeadWords(Feh))
  {
    SwayBGWords();
    NitrogenWords();
  }

  lemma LeadWordsAreWords(b: Backend)
    ensures AllWords(LeadWords(b))
  {
    match b
    case GSettings => GSettingsWordsAreWords();
    case XfConf => XfConfWordsAreWords();
    case DbusPlasma =>
      PlasmaWords0AreWords();
      PlasmaWords1AreWords();
      PlasmaWords2AreWords();
      PlasmaWords3AreWords();
      AllWordsConcat(PlasmaWords0, PlasmaWords1);
      AllWordsConcat(PlasmaWords0 + PlasmaWords1, PlasmaWords2);
      AllWordsConcat(PlasmaWords0 + PlasmaWords1 + PlasmaWords2, PlasmaWords3);
    case _ => ToolWordsAreWords();
  }

  // ---- what the spawned program receives ----

  /** The split of a template: fixed words, the path's word split, the trail. */
  lemma WordsOfTemplate(lead: seq<string>, pathWord: string, trail: seq<string>)
    requires 1 <= |lead| && AllWords(lead)
    requires trail == [] || trail == ["}'"]
    ensures Words(Unwords(lead + [pathWord] + trail)) == lead + Words(pathWord) + trail
  {
    var rest := [pathWord] + trail;
    WordsUnwords(lead);
    ConcatAssoc(lead, [pathWord], trail);
    UnwordsConcat(lead, rest);
    WordsSeparated(Unwords(lead), ' ', Unwords(rest));
    WordsOfTrail(pathWord, trail);
    ConcatAssoc(lead, Words(pathWord), trail);
  }

  /** The path's word and the trail split apart at the space between them. */
  lemma WordsOfTrail(pathWord: string, trail: seq<string>)
    requires trail == [] || trail == ["}'"]
    ensures Words(Unwords([pathWord] + trail)) == Words(pathWord) + trail
  {
    if trail == [] {
      assert [pathWord] + trail == [pathWord];
      ConcatEmpty(Words(pathWord));
    } else {
      assert [pathWord] + trail == [pathWord, "}'"];
      assert Unwords([pathWord, "}'"]) == pathWord + [' '] + "}'";
      WordsSeparated(pathWord, ' ', "}'");
      WordsOfWord("}'");
    }
  }

  lemma TokeniseOfWords(command: string, lead: seq<string>, middle: seq<string>, trail: seq<string>)
    requires Words(command) == lead + middle + trail && 1 <= |lead|
    ensures Tokenise(command) == Ok(Argv(lead[0], lead[1..] + middle + trail))
  {
    TokeniseOfSplit(command);
    ConcatHead3(lead, middle, trail);
  }

  /**
   * After `execute`'s whitespace split, the program is the template's first
   * word and its arguments are the template's other words with the path's
   * word split on whitespace in between. No shell takes part, so quotes and
   * escaping backslashes reach the program as literal characters.
   */
  lemma CommandArgv(b: Backend, path: string)
    ensures Tokenise(Command(b, path)) ==
      Ok(Argv(ProgramName(b), LeadWords(b)[1..] + Words(PathWord(b, path)) + TrailWords(b)))
  {
    var L, P, T := LeadWords(b), PathWord(b, path), TrailWords(b);
    LeadWordsAreWords(b);
    WordsOfTemplate(L, P, T);
    TokeniseOfWords(Command(b, path), L, Words(P), T);
  }

  /**
   * The path arrives as one argument exactly when it has no whitespace
   * (and, for the escaping backends, is not empty); otherwise the split
   * breaks it apart.
   */
  lemma PathWordIsOneWord(b: Backend, path: string)
    ensures Words(PathWord(b, path)) == [PathWord(b, path)] <==>
            NoWhitespace(path) && (path != "" || !EscapesPath(b))
  {
    var w := PathWord(b, path);
    WordsSingle(w);
    NoWhitespaceConcat(Opening(b) + EmbeddedPath(b, path), Closing(b));
    NoWhitespaceConcat(Opening(b), EmbeddedPath(b, path));
    if EscapesPath(b) {
      EscapeKeepsWhitespace(path);
    } else {
      assert NoWhitespace(Opening(b)) && NoWhitespace(Closing(b));
    }
  }

  /**
   * For the escaping backends a whitespace-free path reaches the program as
   * the single last argument, but escaped: the program sees the path itself
   * only when the path has no special character.
   */
  lemma EscapedPathArgument(b: Backend, path: string)
    requires EscapesPath(b) && path != "" && NoWhitespace(path)
    ensures Tokenise(Command(b, path)) ==
      Ok(Argv(ProgramName(b), LeadWords(b)[1..] + [Escape(path)]))
    ensures Escape(path) == path <==> NoSpecial(path)
  {
    var e := Escape(path);
    CommandArgv(b, path);
    EscapingPathWord(b, path);
    PathWordIsOneWord(b, path);
    EscapeIdentityIff(path);
    ConcatEmpty(LeadWords(b)[1..] + [e]);
  }

  /** The escaping backends put nothing around the escaped path and nothing after it. */
  lemma EscapingPathWord(b: Backend, path: string)
    requires EscapesPath(b)
    ensures PathWord(b, path) == Escape(path) && TrailWords(b) == []
  {
    var e := Escape(path);
    assert Opening(b) == "" && Closing(b) == "";
    assert "" + e + "" == e;
  }

  /**
   * An escaped space does not hold the path together: for a path `x y`
   * the program is handed `x\` (the escaped `x` with the backslash) and
   * the escaped `y` as two separate arguments.
   */
  lemma EscapedSpaceStillSplits(b: Backend, x: string, y: string)
    requires EscapesPath(b) && NoWhitespace(x) && NoWhitespace(y) && y != ""
    ensures Tokenise(Command(b, x + " " + y)) ==
      Ok(Argv(ProgramName(b), LeadWords(b)[1..] + [Escape(x) + "\\", Escape(y)]))
  {
    var path := x + " " + y;
    CommandArgv(b, path);
    EscapingPathWord(b, path);
    WordsOfEscapedSpace(x, y);
    ConcatEmpty(LeadWords(b)[1..] + [Escape(x) + "\\", Escape(y)]);
  }

  /** The escaped form of `x y` splits at the space, after the backslash. */
  lemma WordsOfEscapedSpace(x: string, y: string)
    requires NoWhitespace(x) && NoWhitespace(y) && y != ""
    ensures Words(Escape(x + " " + y)) == [Escape(x) + "\\", Escape(y)]
  {
    var ex, ey := Escape(x), Escape(y);
    var w := ex + "\\";
    EscapeOfSpace(x, y);
    WordsSeparated(w, ' ', ey);
    EscapedHalvesAreWords(x, y);
    WordsOfWord(w);
    WordsOfWord(ey);
    Pair(w, ey);
  }

  lemma EscapedHalvesAreWords(x: string, y: string)
    requires NoWhitespace(x) && NoWhitespace(y) && y != ""
    ensures IsWord(Escape(x) + "\\") && IsWord(Escape(y))
  {
    EscapeKeepsWhitespace(x);
    EscapeKeepsWhitespace(y);
    assert NoWhitespace("\\");
    NoWhitespaceConcat(Escape(x), "\\");
  }

  lemma EscapeSpace()
    ensures Escape(" ") == "\\" + [' ']
  {
    assert IsSpecial(' ') by {
      assert SpecialChars[0] == ' ';
    }
    assert Escape(" ") == EscapeChar(' ') + Escape([]);
  }

  /** Escaping `x y` puts a backslash in front of the space. */
  lemma EscapeOfSpace(x: string, y: string)
    ensures Escape(x + " " + y) == Escape(x) + "\\" + [' '] + Escape(y)
  {
    var ex, ey := Escape(x), Escape(y);
    EscapeConcat(x + " ", y);
    EscapeConcat(x, " ");
    EscapeSpace();
    ConcatAssoc(ex, "\\", [' ']);
  }

  // ---- reading the path back out of a command line ----

  /** The command text before the embedded path. */
  function CommandPrefix(b: Backend): string {
    Unwords(LeadWords(b)) + " " + Opening(b)
  }

  /** The command text after the embedded path. */
  function CommandSuffix(b: Backend): string {
    Closing(b) + (if TrailWords(b) == [] then "" else " " + "}'")
  }

  lemma UnwordsOfTemplate(lead: seq<string>, pathWord: string, trail: seq<string>)
    requires 1 <= |lead|
    requires trail == [] || trail == ["}'"]
    ensures Unwords(lead + [pathWord] + trail) ==
      Unwords(lead) + " " + pathWord + (if trail == [] then "" else " " + "}'")
  {
    assert lead + [pathWord] + trail == lead + ([pathWord] + trail);
    UnwordsConcat(lead, [pathWord] + trail);
    if trail == [] {
      assert Unwords([pathWord] + trail) == pathWord;
    } else {
      assert Unwords([pathWord] + trail) == pathWord + " " + "}'";
    }
  }

  lemma Regroup(u: string, o: string, e: string, c: string, t: string)
    ensures u + (o + e + c) + t == (u + o) + e + (c + t)
  {
    ConcatAssoc(u, o + e, c);
    ConcatAssoc(u, o, e);
    ConcatAssoc(u + o + e, c, t);
  }

  /**
   * The inverse of `Command` for one backend: strips the fixed prefix and
   * suffix and, for the escaping backends, undoes the escaping.
   */
  function ExtractPath(b: Backend, command: string): Option<string> {
    var pre, post := CommandPrefix(b), CommandSuffix(b);
    if |pre| + |post| <= |command| && command[..|pre|] == pre
       && command[|command| - |post|..] == post
    then
      var mid := command[|pre|..|command| - |post|];
      if !EscapesPath(b) then Some(mid)
      else if WellEscaped(mid) then Some(Unescape(mid))
      else None
    else None
  }

  lemma SliceMiddle(pre: string, mid: string, post: string)
    ensures var c := pre + mid + post;
      && |pre| + |post| <= |c| && c[..|pre|] == pre && c[|c| - |post|..] == post
      && c[|pre|..|c| - |post|] == mid
  {
  }

  lemma Reassemble(c: string, pre: string, post: string)
    requires |pre| + |post| <= |c| && c[..|pre|] == pre && c[|c| - |post|..] == post
    ensures c == pre + c[|pre|..|c| - |post|] + post
  {
  }

  lemma ExtractOfCommand(b: Backend, path: string)
    ensures ExtractPath(b, Command(b, path)) == Some(path)
  {
    SliceMiddle(CommandPrefix(b), EmbeddedPath(b, path), CommandSuffix(b));
    if EscapesPath(b) {
      EscapeIsWellEscaped(path);
      UnescapeEscape(path);
    }
  }

  lemma CommandOfExtract(b: Backend, command: string, path: string)
    requires ExtractPath(b, command) == Some(path)
    ensures Command(b, path) == command
  {
    var pre, post := CommandPrefix(b), CommandSuffix(b);
    Reassemble(command, pre, post);
    var mid := command[|pre|..|command| - |post|];
    if EscapesPath(b) {
      EscapeUnescape(mid);
    }
  }

  /** `ExtractPath` recovers exactly the path a command line was made from. */
  lemma ExtractPathIff(b: Backend, command: string, path: string)
    ensures ExtractPath(b, command) == Some(path) <==> Command(b, path) == command
  {
    if Command(b, path) == command {
      ExtractOfCommand(b, path);
    }
    if ExtractPath(b, command) == Some(path) {
      CommandOfExtract(b, command, path);
    }
  }

  /** Different paths give different command lines, for every backend. */
  lemma CommandInjective(b: Backend, p: string, q: string)
    ensures Command(b, p) == Command(b, q) ==> p == q
  {
    ExtractPathIff(b, Command(b, p), p);
    ExtractPathIff(b, Command(b, p), q);
  }

  /** Each command line starts with its program's name and a space. */
  lemma CommandStartsWithProgram(b: Backend, path: string)
    ensures StartsWith(Command(b, path), ProgramName(b) + " ")
  {
    var L := LeadWords(b);
    assert Unwords(L) == L[0] + " " + Unwords(L[1..]);
  }
}

=== FILE: dispatch.dfy ===
/**
 * Linux `change_wallpaper` and `change_wallpaper_url`
 * (src-tauri/src/wallpaper.rs): pick a backend, format its command, split
 * it and start the program; for a URL, first download the image to a
 * temporary file named after a random number and the URL's extension.
 * What the operating system answers (the environment variable, whether
 * the probed tools start, whether the spawn succeeds, the download and the
 * file writes) is passed in as data.
 */
module Dispatch {
  import opened Outcomes
  import opened Text
  import opened Tokenize
  import opened Backends
  import opened Commands
  import opened PathNames
  import opened Save
  import opened Seqs

  /** Everything `change_wallpaper` learns from the system. */
  datatype Environment = Environment(
    desktop: Option<string>,     // XDG_CURRENT_DESKTOP, None when unset
    nitrogenRuns: bool,          // `nitrogen --version` could be started
    fehRuns: bool,               // `feh --version` could be started
    spawnError: Option<string>)  // why starting the wallpaper program failed, if it did

  const SpawnFailedPrefix: string := "Failed to execute command: "

  /**
   * `LinuxWallpaperCommand::execute`: split the command and start the
   * program without waiting for it. The started program and its arguments
   * are returned on success.
   */
  function Execute(command: string, spawnError: Option<string>): (r: Result<Argv, string>)
    ensures r.Ok? <==> !AllWhitespace(command) && spawnError.None?
    ensures r.Ok? ==> Tokenise(command) == Ok(r.value)
    ensures AllWhitespace(command) ==> r == Err("Command was empty")
    ensures !AllWhitespace(command) && spawnError.Some? ==>
            r == Err(SpawnFailedPrefix + spawnError.value)
  {
    match Tokenise(command)
    case Err(e) => Err(e)
    case Ok(argv) =>
      match spawnError
      case Some(e) => Err(SpawnFailedPrefix + e)
      case None => Ok(argv)
  }

  /** The program and arguments a backend's command starts for `path`. */
  function Launched(b: Backend, path: string): Argv {
    Argv(ProgramName(b), LeadWords(b)[1..] + Words(PathWord(b, path)) + TrailWords(b))
  }

  /** A backend's command is never blank, so `execute` fails only when the spawn does. */
  lemma ExecuteCommand(b: Backend, path: string, spawnError: Option<string>)
    ensures spawnError.None? ==> Execute(Command(b, path), spawnError) == Ok(Launched(b, path))
    ensures spawnError.Some? ==>
              Execute(Command(b, path), spawnError) == Err(SpawnFailedPrefix + spawnError.value)
  {
    CommandArgv(b, path);
  }

  const ChangeFailedPrefix: string := "Failed to change wallpaper: "

  /**
   * Linux `change_wallpaper`. A detection failure (a panic in the source)
   * is passed on as it is; an `execute` failure is wrapped in the
   * source's message. The "Command was empty" failure cannot happen,
   * since no template is blank.
   */
  function ChangeWallpaper(path: string, env: Environment): (r: Result<Argv, WallpaperError>)
    ensures var d := Detect(env.desktop, env.nitrogenRuns, env.fehRuns).outcome;
      && (d.Err? ==> r == Err(d.error))
      && (d.Ok? && env.spawnError.None? ==> r == Ok(Launched(d.value, path)))
      && (d.Ok? && env.spawnError.Some? ==> r == Err(Message(
            ChangeFailedPrefix + (SpawnFailedPrefix + env.spawnError.value))))
  {
    match Detect(env.desktop, env.nitrogenRuns, env.fehRuns).outcome
    case Err(e) => Err(e)
    case Ok(b) =>
      ExecuteCommand(b, path, env.spawnError);
      match Execute(Command(b, path), env.spawnError)
      case Ok(argv) => Ok(argv)
      case Err(e) => Err(Message(ChangeFailedPrefix + e))
  }

  /**
   * On GNOME the path is handed to gsettings raw, inside literal double
   * quotes: without a shell the quotes stay part of the argument.
   */
  lemma GnomeArgv(path: string)
    requires NoWhitespace(path)
    ensures ChangeWallpaper(path, Environment(Some("GNOME"), false, false, None)) ==
      Ok(Argv("gsettings",
        ["set", "org.gnome.desktop.background", "picture-uri", "\"file://" + path + "\""]))
  {
    GnomeSelectsGSettings();
    GSettingsLaunch(path);
  }

  lemma GnomeSelectsGSettings()
    ensures Detect(Some("GNOME"), false, false).outcome == Ok(GSettings)
  {
    DetectPreimage(Some("GNOME"), false, false);
  }

  lemma GSettingsLaunch(path: string)
    requires NoWhitespace(path)
    ensures Launched(GSettings, path) == Argv("gsettings",
        ["set", "org.gnome.desktop.background", "picture-uri", "\"file://" + path + "\""])
  {
    PathWordIsOneWord(GSettings, path);
    assert PathWord(GSettings, path) == "\"file://" + path + "\"";
    assert ProgramName(GSettings) == "gsettings";
    assert LeadWords(GSettings)[1..] == ["set", "org.gnome.desktop.background", "picture-uri"];
  }

  // ---- change_wallpaper_url ----

  /** The random suffix of the temporary file: a `u64`. */
  type U64 = n: nat | n < 0x1_0000_0000_0000_0000

  /** The extension the temporary file gets: the URL's, or `jpg` when it has none. */
  function UrlExtension(url: string): (ext: string)
    ensures '.' !in ext && NoSlash(ext)
    ensures Extension(url).Some? ==> ext == Extension(url).value
    ensures Extension(url).None? ==> ext == "jpg"
  {
    Extension(url).GetOr("jpg")
  }

  /** The directory and the fixed start of the temporary file's name. */
  const TempDir: string := "/tmp"
  const TempPrefix: string := "wallpaper."

  /**
   * The temporary file's name up to its extension: `wallpaper.` followed
   * by the decimal digits of `n`.
   */
  function TempStem(n: U64): (stem: string)
    ensures StartsWith(stem, TempPrefix) && NoSlash(stem) && |stem| > |TempPrefix|
    ensures AllDigits(stem[|TempPrefix|..]) && ParseDecimal(stem[|TempPrefix|..]) == n
    ensures stem[|TempPrefix|] == '0' ==> |stem| == |TempPrefix| + 1
  {
    var d := Decimal(n);
    assert NoSlash(d) by {
      assert forall i :: 0 <= i < |d| ==> IsDigit(d[i]);
    }
    DecimalRoundTrip(n);
    assert (TempPrefix + d)[|TempPrefix|..] == d;
    TempPrefix + d
  }

  /**
   * `format!("/tmp/wallpaper.{}.{}", n, extension)`, assembled as the
   * directory, a separator and the name `<stem>.<extension>`. The file lands
   * in `/tmp` under that name, and `Path::extension` reads back the URL's
   * extension (or the `jpg` default).
   */
  function TempPath(url: string, n: U64): (p: string)
    ensures StartsWith(p, TempDir + "/")
    ensures FileName(p).Some? && p == TempDir + "/" + FileName(p).value
    ensures FileName(p) == Some(TempStem(n) + "." + UrlExtension(url))
    ensures Extension(p) == Some(UrlExtension(url))
  {
    var stem, ext := TempStem(n), UrlExtension(url);
    var p := TempDir + "/" + (stem + "." + ext);
    TempPathShape(stem, ext);
    p
  }

  lemma TempPathShape(stem: string, ext: string)
    requires NoSlash(stem) && |stem| > 1 && '.' !in ext && NoSlash(ext)
    ensures var p := TempDir + "/" + (stem + "." + ext);
      && StartsWith(p, TempDir + "/")
      && FileName(p) == Some(stem + "." + ext)
      && Extension(p) == Some(ext)
  {
    var name := stem + "." + ext;
    assert NoSlash(name) && |name| > 2;
    PrefixStartsWith(TempDir + "/", name);
    SaveEncoderFollowsExtension(TempDir, stem, ext);
    FileNameAfterSlash(TempDir, name);
  }

  /** Different random numbers give different temporary files. */
  lemma TempPathInjective(url: string, m: U64, n: U64)
    ensures TempPath(url, m) == TempPath(url, n) ==> m == n
  {
    if TempPath(url, m) == TempPath(url, n) {
      var ext := UrlExtension(url);
      var sm, sn := TempStem(m), TempStem(n);
      PrefixCancel(TempDir + "/", sm + "." + ext, sn + "." + ext);
      SuffixCancel(sm + ".", sn + ".", ext);
      SuffixCancel(sm, sn, ".");
      PrefixCancel(TempPrefix, Decimal(m), Decimal(n));
      DecimalInjective(m, n);
    }
  }

  /** A URL whose last component has no extension is saved as a `.jpg` file. */
  lemma TempPathDefaultsToJpg(url: string, n: U64)
    requires Extension(url).None?
    ensures EndsWith(TempPath(url, n), ".jpg")
    ensures SaveEncoder(TempPath(url, n)) == Ok(Jpeg)
  {
    assert UrlExtension(url) == "jpg";
    JpgFileIsJpeg(TempDir, TempStem(n));
  }

  lemma JpgFileIsJpeg(dir: string, stem: string)
    requires stem != ""
    ensures var p := dir + "/" + (stem + "." + "jpg");
      EndsWith(p, ".jpg") && SaveEncoder(p) == Ok(Jpeg)
  {
    SuffixOfFilePath(dir, stem, "jpg", "jpg");
    SuffixOfFilePath(dir, stem, "jpg", "png");
    assert "." + "jpg" == ".jpg" && "." + "png" == ".png";
  }

  /**
   * The URL text goes to `Path::new` whole: whatever follows the last `/`
   * is the file name, and whatever follows its last `.` the extension.
   */
  lemma UrlExtensionOfName(front: string, stem: string, ext: string)
    requires stem != "" && NoSlash(stem) && '.' !in ext && NoSlash(ext)
    requires stem + "." + ext != ".."
    ensures UrlExtension(front + "/" + (stem + "." + ext)) == ext
  {
    var name := stem + "." + ext;
    assert NoSlash(name) && |name| >= 2;
    FileNameAfterSlash(front, name);
    NameExtensionIff(name, ext);
  }

  /** A final name without any `.` has no extension, so the default `jpg` is used. */
  lemma UrlWithoutDotIsJpg(front: string, name: string)
    requires IsFileName(name) && '.' !in name
    ensures UrlExtension(front + "/" + name) == "jpg"
  {
    ExtensionAfterSlash(front, name);
  }

  /** A query string is not stripped: it stays in the extension. */
  lemma UrlQueryInExtension()
    ensures UrlExtension("h/a.png?s=1") == "png?s=1"
  {
    assert "h/a.png?s=1" == "h" + "/" + ("a" + "." + "png?s=1");
    UrlExtensionOfName("h", "a", "png?s=1");
  }

  /** A URL with no path after the host: the host name is the file name. */
  lemma UrlHostAsFileName(scheme: string, host: string, tld: string)
    requires host != "" && NoSlash(host) && '.' !in tld && NoSlash(tld) && host + "." + tld != ".."
    ensures UrlExtension(scheme + "//" + (host + "." + tld)) == tld
  {
    assert scheme + "//" + (host + "." + tld) == (scheme + "/") + "/" + (host + "." + tld);
    UrlExtensionOfName(scheme + "/", host, tld);
  }

  /** A name ending in `.` has an empty extension, so the temporary path ends in `.`. */
  lemma UrlTrailingDot(front: string, stem: string, n: U64)
    requires stem != "" && NoSlash(stem) && stem != "."
    ensures UrlExtension(front + "/" + (stem + ".")) == ""
    ensures EndsWith(TempPath(front + "/" + (stem + "."), n), ".")
  {
    assert stem + "." == stem + "." + "";
    assert stem + "." + "" != ".." by {
      if |stem + "." + ""| == 2 {
        assert |stem| == 1 && stem[0] == (stem + "." + "")[0];
      }
    }
    UrlExtensionOfName(front, stem, "");
    var p := TempPath(front + "/" + (stem + "."), n);
    var s := TempStem(n);
    assert p == TempDir + "/" + (s + "." + "");
    assert p == (TempDir + "/" + s) + ".";
    SuffixEndsWith(TempDir + "/" + s, ".");
  }

  /**
   * What the download steps of `change_wallpaper_url` report: the HTTP
   * request, reading the body, creating, writing and flushing the file.
   */
  datatype DownloadIo = DownloadIo(
    fetchError: Option<string>,
    readError: Option<string>,
    createError: Option<string>,
    writeError: Option<string>,
    flushError: Option<string>)

  predicate DownloadOk(io: DownloadIo) {
    io.fetchError.None? && io.readError.None? && io.createError.None?
    && io.writeError.None? && io.flushError.None?
  }

  // The message each download step puts in front of the underlying error;
  // creating the file fails with the same message as in `save_wallpaper`.
  const FetchFailed: string := "Failed to download image: "
  const ReadFailed: string := "Failed to read image bytes: "
  const WriteFailed: string := "Failed to write to file: "
  const FlushFailed: string := "Failed to flush file: "

  /**
   * Linux `change_wallpaper_url`: the steps run in order and the first one
   * that fails ends the call with its message, before any wallpaper
   * command is formed; when all succeed, the temporary file is set as the
   * wallpaper.
   */
  function ChangeWallpaperUrl(url: string, n: U64, io: DownloadIo, env: Environment)
    : (r: Result<Argv, WallpaperError>)
    ensures DownloadOk(io) ==> r == ChangeWallpaper(TempPath(url, n), env)
    ensures io.fetchError.Some? ==> r == Err(Message(FetchFailed + io.fetchError.value))
    ensures io.fetchError.None? && io.readError.Some? ==>
            r == Err(Message(ReadFailed + io.readError.value))
    ensures io.fetchError.None? && io.readError.None? && io.createError.Some? ==>
            r == Err(Message(CreateFailed + io.createError.value))
    ensures io.fetchError.None? && io.readError.None? && io.createError.None?
            && io.writeError.Some? ==>
            r == Err(Message(WriteFailed + io.writeError.value))
    ensures io.fetchError.None? && io.readError.None? && io.createError.None?
            && io.writeError.None? && io.flushError.Some? ==>
            r == Err(Message(FlushFailed + io.flushError.value))
  {
    if io.fetchError.Some? then Err(Message(FetchFailed + io.fetchError.value))
    else if io.readError.Some? then Err(Message(ReadFailed + io.readError.value))
    else if io.createError.Some? then Err(Message(CreateFailed + io.createError.value))
    else if io.writeError.Some? then Err(Message(WriteFailed + io.writeError.value))
    else if io.flushError.Some? then Err(Message(FlushFailed + io.flushError.value))
    else ChangeWallpaper(TempPath(url, n), env)
  }

  /**
   * A failed download never reaches backend detection: the result does not
   * depend on the environment, and it is never a detection failure.
   */
  lemma DownloadFailureSkipsDetection(url: string, n: U64, io: DownloadIo, e1: Environment, e2: Environment)
    requires !DownloadOk(io)
    ensures ChangeWallpaperUrl(url, n, io, e1) == ChangeWallpaperUrl(url, n, io, e2)
    ensures ChangeWallpaperUrl(url, n, io, e1).Err?
    ensures ChangeWallpaperUrl(url, n, io, e1).error.Message?
  {
  }
}

=== FILE: escape.dfy ===
/**
 * `escape_path` (src-tauri/src/wallpaper.rs): a backslash goes in front of
 * every character of a fixed set of 22 shell metacharacters; every other
 * character is copied unchanged, in order.
 */
module ShellEscape {
  import opened Text
  import opened Seqs

  /** The metacharacters `escape_path` escapes, in the source's order. */
  const SpecialChars: seq<char> :=
    [' ', '$', '`', '\\', '"', '\'', '&', '|', '*', '?', ';', '<', '>', '(', ')', '[', ']', '{',
     '}', '^', '#', '~']

  predicate IsSpecial(c: char) {
    c in SpecialChars
  }

  predicate NoSpecial(s: string) {
    forall i :: 0 <= i < |s| ==> !IsSpecial(s[i])
  }

  function CountSpecial(s: string): nat {
    if |s| == 0 then 0 else (if IsSpecial(s[0]) then 1 else 0) + CountSpecial(s[1..])
  }

  /** What one input character becomes in the output. */
  function EscapeChar(c: char): (r: string)
    ensures 1 <= |r| && r[|r| - 1] == c
    ensures |r| == 2 <==> IsSpecial(c)
  {
    if IsSpecial(c) then ['\\', c] else [c]
  }

  /**
   * The escaped path: one backslash more per special character, and a path
   * without special characters comes back unchanged.
   */
  function Escape(path: string): (r: string)
    ensures |r| == |path| + CountSpecial(path)
    ensures NoSpecial(path) ==> r == path
    ensures |r| == 0 <==> |path| == 0
  {
    if |path| == 0 then [] else EscapeChar(path[0]) + Escape(path[1..])
  }

  lemma {:induction false} CountSpecialZero(path: string)
    requires CountSpecial(path) == 0
    ensures NoSpecial(path)
  {
    if |path| != 0 {
      CountSpecialZero(path[1..]);
      assert forall i :: 1 <= i < |path| ==> path[i] == path[1..][i - 1];
    }
  }

  /** The escaped path equals the path exactly when it has no special character. */
  lemma EscapeIdentityIff(path: string)
    ensures Escape(path) == path <==> NoSpecial(path)
  {
    if Escape(path) == path {
      CountSpecialZero(path);
    }
  }

  /** The loop of `escape_path`, pushing onto a growing string. */
  method EscapePath(path: string) returns (escaped: string)
    ensures escaped == Escape(path)
  {
    escaped := "";
    var i := 0;
    while i < |path|
      invariant 0 <= i <= |path|
      invariant escaped == Escape(path[..i])
    {
      var c := path[i];
      var before := escaped;
      var special := IsSpecial(c);
      if special {
        escaped := escaped + ['\\'];
      }
      escaped := escaped + [c];
      PushEscaped(before, c, special);
      EscapePrefixStep(path, i);
      i := i + 1;
    }
    assert path[..i] == path;
  }

  lemma {:induction false} EscapeConcat(a: string, b: string)
    ensures Escape(a + b) == Escape(a) + Escape(b)
  {
    if |a| == 0 {
      assert a + b == b;
    } else {
      assert (a + b)[0] == a[0];
      assert (a + b)[1..] == a[1..] + b;
      EscapeConcat(a[1..], b);
    }
  }

  /** Pushing the optional backslash and then the character appends its escape. */
  lemma PushEscaped(before: string, c: char, special: bool)
    requires special == IsSpecial(c)
    ensures (if special then before + ['\\'] else before) + [c] == before + EscapeChar(c)
  {
    if special {
      ConcatAssoc(before, ['\\'], [c]);
    }
  }

  /** One more character of the input adds its escape to the output. */
  lemma EscapePrefixStep(path: string, i: nat)
    requires i < |path|
    ensures Escape(path[..i + 1]) == Escape(path[..i]) + EscapeChar(path[i])
  {
    assert path[..i + 1] == path[..i] + [path[i]];
    EscapeSnoc(path[..i], path[i]);
  }

  lemma EscapeSnoc(a: string, c: char)
    ensures Escape(a + [c]) == Escape(a) + EscapeChar(c)
  {
    EscapeConcat(a, [c]);
    assert Escape([c]) == EscapeChar(c) + Escape([]);
  }

  /**
   * Removes each backslash that stands in front of another character and
   * keeps that character; a lone trailing backslash is kept.
   */
  function Unescape(t: string): string
  {
    if |t| == 0 then []
    else if t[0] == '\\' && 2 <= |t| then [t[1]] + Unescape(t[2..])
    else [t[0]] + Unescape(t[1..])
  }

  /**
   * Round trip: deleting the escaping backslashes recovers the path. It
   * works because the backslash is itself one of the escaped characters.
   */
  lemma {:induction false} UnescapeEscape(path: string)
    ensures Unescape(Escape(path)) == path
  {
    if |path| != 0 {
      var c, tail := path[0], path[1..];
      assert Escape(path) == EscapeChar(c) + Escape(tail);
      UnescapeHead(c, Escape(tail));
      UnescapeEscape(tail);
      HeadCons(path);
    }
  }

  /** Unescaping undoes the escape of one leading character. */
  lemma UnescapeHead(c: char, rest: string)
    ensures Unescape(EscapeChar(c) + rest) == [c] + Unescape(rest)
  {
    if IsSpecial(c) {
      UnescapePair(c, rest);
    } else {
      assert c != '\\' by {
        assert SpecialChars[3] == '\\';
      }
      UnescapeSingle(c, rest);
    }
  }

  lemma UnescapePair(c: char, rest: string)
    ensures Unescape(['\\', c] + rest) == [c] + Unescape(rest)
  {
    var t := ['\\', c] + rest;
    assert t[0] == '\\' && t[1] == c && t[2..] == rest;
  }

  lemma UnescapeSingle(c: char, rest: string)
    requires c != '\\'
    ensures Unescape([c] + rest) == [c] + Unescape(rest)
  {
    var t := [c] + rest;
    assert t[0] == c && t[1..] == rest;
  }

  /** Escaping is injective: two different paths never escape alike. */
  lemma EscapeInjective(p: string, q: string)
    ensures Escape(p) == Escape(q) ==> p == q
  {
    UnescapeEscape(p);
    UnescapeEscape(q);
  }

  /**
   * The shape of escaped text: a run of units, each either a character
   * outside the special set or a backslash followed by a special character.
   */
  predicate WellEscaped(t: string)
  {
    if |t| == 0 then true
    else if t[0] == '\\' then 2 <= |t| && IsSpecial(t[1]) && WellEscaped(t[2..])
    else !IsSpecial(t[0]) && WellEscaped(t[1..])
  }

  lemma {:induction false} EscapeIsWellEscaped(path: string)
    ensures WellEscaped(Escape(path))
  {
    if |path| != 0 {
      var c := path[0];
      var rest := Escape(path[1..]);
      EscapeIsWellEscaped(path[1..]);
      if IsSpecial(c) {
        var t := ['\\', c] + rest;
        assert t[2..] == rest;
      } else {
        var t := [c] + rest;
        assert t[1..] == rest;
      }
    }
  }

  lemma {:induction false} EscapeUnescape(t: string)
    requires WellEscaped(t)
    ensures Escape(Unescape(t)) == t
  {
    if |t| != 0 {
      if t[0] == '\\' {
        EscapeUnescape(t[2..]);
        var u := Unescape(t[2..]);
        assert Unescape(t) == [t[1]] + u;
        assert ([t[1]] + u)[1..] == u;
        assert t == ['\\', t[1]] + t[2..];
      } else {
        EscapeUnescape(t[1..]);
        var u := Unescape(t[1..]);
        assert Unescape(t) == [t[0]] + u;
        assert ([t[0]] + u)[1..] == u;
        assert t == [t[0]] + t[1..];
      }
    }
  }

  /** The outputs of `escape_path` are exactly the well-escaped strings. */
  lemma EscapeImage(t: string)
    ensures WellEscaped(t) <==> exists path :: Escape(path) == t
  {
    if WellEscaped(t) {
      EscapeUnescape(t);
    }
    if exists path :: Escape(path) == t {
      var path :| Escape(path) == t;
      EscapeIsWellEscaped(path);
    }
  }

  /**
   * Escaping adds only backslashes, which are not whitespace: the escaped
   * path has whitespace exactly when the path has.
   */
  lemma {:induction false} EscapeKeepsWhitespace(path: string)
    ensures NoWhitespace(Escape(path)) <==> NoWhitespace(path)
  {
    if |path| != 0 {
      EscapeKeepsWhitespace(path[1..]);
      var e := EscapeChar(path[0]);
      NoWhitespaceConcat(e, Escape(path[1..]));
      assert path == [path[0]] + path[1..];
      NoWhitespaceConcat([path[0]], path[1..]);
    }
  }
}

=== FILE: outcomes.dfy ===
/**
 * Option and Result: the two failure-carrying shapes the wallpaper code uses.
 * `Result` stands for Rust's `Result<T, E>`; `Option` for `Option<T>`.
 */
module Outcomes {

  datatype Option<+T> = None | Some(value: T) {
    /** The carried value, or `default` when there is none (Rust's `unwrap_or`). */
    function GetOr(default: T): T {
      match this
      case Some(v) => v
      case None => default
    }
  }

  datatype Result<+T, +E> = Ok(value: T) | Err(error: E)
}

=== FILE: paths.dfy ===
/**
 * The part of Rust's `std::path::Path` that `change_wallpaper_url`
 * (src-tauri/src/wallpaper.rs) relies on, for Unix paths: `file_name` and
 * `extension`. A URL is handed to `Path::new` as it is, so its scheme,
 * host and query are just more path text.
 */
module PathNames {
  import opened Outcomes
  import opened Seqs

  predicate NoSlash(s: string) {
    '/' !in s
  }

  /** The text between separators: `s.split('/')`. */
  function Segments(s: string): (segs: seq<string>)
    ensures 1 <= |segs|
    ensures forall i :: 0 <= i < |segs| ==> NoSlash(segs[i])
  {
    if |s| == 0 then [""]
    else
      var rest := Segments(s[1..]);
      if s[0] == '/' then [""] + rest
      else [[s[0]] + rest[0]] + rest[1..]
  }

  lemma {:induction false} SegmentsOfName(x: string)
    requires NoSlash(x)
    ensures Segments(x) == [x]
  {
    if |x| != 0 {
      assert x[0] in x;
      SegmentsOfName(x[1..]);
      assert x == [x[0]] + x[1..];
    }
  }

  /** A separator splits the segments of its two sides apart. */
  lemma {:induction false} SegmentsSlash(a: string, b: string)
    ensures Segments(a + "/" + b) == Segments(a) + Segments(b)
  {
    var s := a + "/" + b;
    if |a| == 0 {
      assert s == "/" + b;
      assert s[1..] == b;
    } else {
      assert s[0] == a[0];
      assert s[1..] == a[1..] + "/" + b;
      SegmentsSlash(a[1..], b);
      var ra, rb := Segments(a[1..]), Segments(b);
      if a[0] == '/' {
        ConcatAssoc([""], ra, rb);
      } else {
        ConcatHead(ra, rb);
        ConcatAssoc([[a[0]] + ra[0]], ra[1..], rb);
      }
    }
  }

  /** Empty segments and `.` segments name no component. */
  predicate IsComponent(seg: string) {
    seg != "" && seg != "."
  }

  /** What `Path::components` yields for a Unix path, roots and `.` left out. */
  function Components(path: string): (cs: seq<string>)
    ensures forall i :: 0 <= i < |cs| ==> IsComponent(cs[i]) && NoSlash(cs[i])
  {
    KeepComponents(Segments(path))
  }

  function KeepComponents(segs: seq<string>): (cs: seq<string>)
    requires forall i :: 0 <= i < |segs| ==> NoSlash(segs[i])
    ensures forall i :: 0 <= i < |cs| ==> IsComponent(cs[i]) && NoSlash(cs[i])
  {
    if |segs| == 0 then []
    else (if IsComponent(segs[0]) then [segs[0]] else []) + KeepComponents(segs[1..])
  }

  lemma {:induction false} KeepComponentsConcat(a: seq<string>, b: seq<string>)
    requires forall i :: 0 <= i < |a| ==> NoSlash(a[i])
    requires forall i :: 0 <= i < |b| ==> NoSlash(b[i])
    ensures KeepComponents(a + b) == KeepComponents(a) + KeepComponents(b)
  {
    if |a| == 0 {
      EmptyConcat(b);
    } else {
      ConcatHead(a, b);
      KeepComponentsConcat(a[1..], b);
      var h := if IsComponent(a[0]) then [a[0]] else [];
      ConcatAssoc(h, KeepComponents(a[1..]), KeepComponents(b));
    }
  }

  /** A name a path can end in: a component other than `..`. */
  predicate IsFileName(name: string) {
    IsComponent(name) && NoSlash(name) && name != ".."
  }

  /**
   * `Path::file_name`: the last component, unless there is none or it is
   * `..`. Trailing separators and `.` components are skipped.
   */
  function FileName(path: string): (r: Option<string>)
    ensures r.Some? ==> IsFileName(r.value)
    ensures path == "" || path == "." || path == ".." ==> r.None?
  {
    ComponentsOfBare(path);
    var cs := Components(path);
    if |cs| == 0 || cs[|cs| - 1] == ".." then None else Some(cs[|cs| - 1])
  }

  /** The components of the paths that are a single non-name segment. */
  lemma ComponentsOfBare(path: string)
    ensures path == "" || path == "." ==> Components(path) == []
    ensures path == ".." ==> Components(path) == [".."]
  {
    if path == "" || path == "." {
      SegmentsOfName(path);
      KeepNone(path);
    } else if path == ".." {
      SegmentsOfName(path);
      KeepOne(path);
    }
  }

  /** A path that ends in `/name` has file name `name`, whatever comes before. */
  lemma FileNameAfterSlash(front: string, name: string)
    requires IsFileName(name)
    ensures FileName(front + "/" + name) == Some(name)
  {
    var segs := Segments(front);
    SegmentsSlash(front, name);
    SegmentsOfName(name);
    KeepComponentsConcat(segs, [name]);
    KeepOne(name);
    var cs := KeepComponents(segs) + [name];
    assert Components(front + "/" + name) == cs;
    assert cs[|cs| - 1] == name;
  }

  /** A path whose last component is `..` has no file name. */
  lemma FileNameParentDir(front: string)
    ensures FileName(front + "/..") == None
  {
    assert front + "/.." == front + "/" + "..";
    ComponentsAfterSlash(front, "..");
    var cs := Components(front) + [".."];
    assert cs[|cs| - 1] == "..";
  }

  /** A name without a separator is its own file name. */
  lemma FileNameOfName(name: string)
    requires IsFileName(name)
    ensures FileName(name) == Some(name)
  {
    SegmentsOfName(name);
    KeepOne(name);
    assert Components(name) == [name];
  }

  lemma ComponentsAfterSlash(front: string, name: string)
    requires IsComponent(name) && NoSlash(name)
    ensures Components(front + "/" + name) == Components(front) + [name]
  {
    SegmentsSlash(front, name);
    SegmentsOfName(name);
    KeepComponentsConcat(Segments(front), [name]);
    KeepOne(name);
  }

  lemma KeepOne(name: string)
    requires IsComponent(name) && NoSlash(name)
    ensures KeepComponents([name]) == [name]
  {
    assert [name][1..] == [];
    ConcatEmpty([name]);
  }

  lemma KeepNone(seg: string)
    requires !IsComponent(seg) && NoSlash(seg)
    ensures KeepComponents([seg]) == []
  {
    assert [seg][1..] == [];
  }

  /** A trailing separator does not change the file name. */
  lemma FileNameTrailingSlash(path: string)
    ensures FileName(path + "/") == FileName(path)
  {
    ConcatEmpty(path + "/");
    ComponentsOfTrailing(path, "");
  }

  /** Nor does a trailing `/.`. */
  lemma FileNameTrailingDot(path: string)
    ensures FileName(path + "/.") == FileName(path)
  {
    assert path + "/." == path + "/" + ".";
    ComponentsOfTrailing(path, ".");
  }

  /** A last segment that names no component adds nothing to the components. */
  lemma ComponentsOfTrailing(path: string, seg: string)
    requires !IsComponent(seg) && NoSlash(seg)
    ensures Components(path + "/" + seg) == Components(path)
  {
    SegmentsSlash(path, seg);
    SegmentsOfName(seg);
    KeepComponentsConcat(Segments(path), [seg]);
    KeepNone(seg);
    ConcatEmpty(Components(path));
  }

  /** Where the last `.` of `s` is, if there is one. */
  function LastDot(s: string): (r: Option<nat>)
    ensures r.Some? ==> r.value < |s| && s[r.value] == '.' && '.' !in s[r.value + 1..]
    ensures r.None? ==> '.' !in s
  {
    if |s| == 0 then None
    else if s[|s| - 1] == '.' then Some(|s| - 1)
    else
      var r := LastDot(s[..|s| - 1]);
      assert s == s[..|s| - 1] + [s[|s| - 1]];
      r
  }

  /**
   * The extension rule of `Path::extension` applied to a file name: the
   * text after the last `.`, but none when there is no `.` or when the only
   * `.` is the name's first character (a hidden file such as `.profile`).
   */
  function NameExtension(name: string): (r: Option<string>)
    ensures r.Some? ==> '.' !in r.value && |r.value| < |name|
    ensures r.None? <==> name == "" || '.' !in name[1..]
  {
    match LastDot(name)
    case None => None
    case Some(i) => if i == 0 then None else Some(name[i + 1..])
  }

  /** `NameExtension` gives `ext` exactly for names `stem.ext` with a non-empty stem. */
  lemma NameExtensionIff(name: string, ext: string)
    ensures NameExtension(name) == Some(ext) <==>
            '.' !in ext && exists stem :: stem != "" && name == stem + "." + ext
  {
    if NameExtension(name) == Some(ext) {
      var i := LastDot(name).value;
      assert name == name[..i] + "." + ext;
    }
    if '.' !in ext && exists stem :: stem != "" && name == stem + "." + ext {
      var stem :| stem != "" && name == stem + "." + ext;
      var i := |stem|;
      assert name[i] == '.';
      assert name[i + 1..] == ext;
    }
  }

  /** `Path::extension`. */
  function Extension(path: string): (r: Option<string>)
    ensures r.Some? ==> '.' !in r.value && NoSlash(r.value)
  {
    match FileName(path)
    case None => None
    case Some(name) =>
      NameExtension(name)
  }

  /** `front/name` has the extension of its final name: none exactly when the name has none. */
  lemma ExtensionAfterSlash(front: string, name: string)
    requires IsFileName(name)
    ensures Extension(front + "/" + name) == NameExtension(name)
  {
    FileNameAfterSlash(front, name);
  }
}

=== FILE: save.dfy ===
/**
 * The encoder choice of `save_wallpaper` (src-tauri/src/wallpaper.rs): a
 * case-sensitive suffix test on the target path picks PNG, then JPEG, and
 * any other path is refused before a file is touched.
 */
module Save {
  import opened Outcomes
  import opened Text
  import opened PathNames

  datatype Encoder = Png | Jpeg

  const UnsupportedPrefix: string := "Unsupported file extension: "

  /** The encoder `save_wallpaper` uses for `path`, or its refusal message. */
  function SaveEncoder(path: string): (r: Result<Encoder, string>)
    ensures r == Ok(Png) <==> EndsWith(path, ".png")
    ensures r == Ok(Jpeg) <==>
            !EndsWith(path, ".png") && (EndsWith(path, ".jpg") || EndsWith(path, ".jpeg"))
    ensures r.Err? <==>
            !EndsWith(path, ".png") && !EndsWith(path, ".jpg") && !EndsWith(path, ".jpeg")
    ensures r.Err? ==> r.error == UnsupportedPrefix + path
  {
    if EndsWith(path, ".png") then Ok(Png)
    else if EndsWith(path, ".jpg") || EndsWith(path, ".jpeg") then Ok(Jpeg)
    else Err(UnsupportedPrefix + path)
  }

  /**
   * The outcomes of the encoders' file operations. `createError`,
   * `headerError` and `dataError` are the PNG branch's `File::create`,
   * `write_header` and `write_image_data`; `jpegError` is a failure of
   * `jpeg_encoder`'s `new_file` or `encode`, which the source unwraps.
   */
  datatype SaveIo = SaveIo(
    createError: Option<string>,
    headerError: Option<string>,
    dataError: Option<string>,
    jpegError: Option<string>)

  /** `Message` is an `Err(String)`; `JpegPanic` is the panic of an `unwrap`. */
  datatype SaveFailure = SaveMessage(text: string) | JpegPanic

  // The message each PNG step puts in front of the underlying error.
  const CreateFailed: string := "Failed to create file: "
  const HeaderFailed: string := "Failed to write PNG header: "
  const DataFailed: string := "Failed to write image data: "

  /**
   * `save_wallpaper`, with the encoder used reported on success. The
   * encoder follows the suffix test; on the PNG branch the first failing
   * step decides the message, and a JPEG failure panics.
   */
  function SaveWallpaper(path: string, io: SaveIo): (r: Result<Encoder, SaveFailure>)
    ensures r.Ok? ==> SaveEncoder(path) == Ok(r.value)
    ensures SaveEncoder(path).Err? ==> r == Err(SaveMessage(UnsupportedPrefix + path))
    ensures r == Err(JpegPanic) <==> SaveEncoder(path) == Ok(Jpeg) && io.jpegError.Some?
    ensures SaveEncoder(path) == Ok(Png) ==>
      && (io.createError.Some? ==> r == Err(SaveMessage(CreateFailed + io.createError.value)))
      && (io.createError.None? && io.headerError.Some? ==>
            r == Err(SaveMessage(HeaderFailed + io.headerError.value)))
      && (io.createError.None? && io.headerError.None? && io.dataError.Some? ==>
            r == Err(SaveMessage(DataFailed + io.dataError.value)))
      && (io.createError.None? && io.headerError.None? && io.dataError.None? ==> r == Ok(Png))
    ensures SaveEncoder(path) == Ok(Jpeg) && io.jpegError.None? ==> r == Ok(Jpeg)
  {
    match SaveEncoder(path)
    case Ok(Png) =>
      if io.createError.Some? then Err(SaveMessage(CreateFailed + io.createError.value))
      else if io.headerError.Some? then Err(SaveMessage(HeaderFailed + io.headerError.value))
      else if io.dataError.Some? then Err(SaveMessage(DataFailed + io.dataError.value))
      else Ok(Png)
    case Ok(Jpeg) => if io.jpegError.Some? then Err(JpegPanic) else Ok(Jpeg)
    case Err(message) => Err(SaveMessage(message))
  }

  /** The suffix test is exact: upper-case extensions are refused. */
  lemma SuffixTestIsCaseSensitive()
    ensures SaveEncoder("wall.PNG") == Err(UnsupportedPrefix + "wall.PNG")
    ensures SaveEncoder("wall.JPG").Err?
  {
    assert !EndsWith("wall.PNG", ".png") by {
      assert "wall.PNG"[4..] == ".PNG";
    }
    assert !EndsWith("wall.PNG", ".jpg") by {
      assert "wall.PNG"[4..] == ".PNG";
    }
    assert !EndsWith("wall.PNG", ".jpeg") by {
      assert "wall.PNG"[3..] == "l.PNG";
    }
    assert !EndsWith("wall.JPG", ".png") by {
      assert "wall.JPG"[4..] == ".JPG";
    }
    assert !EndsWith("wall.JPG", ".jpg") by {
      assert "wall.JPG"[4..] == ".JPG";
    }
    assert !EndsWith("wall.JPG", ".jpeg") by {
      assert "wall.JPG"[3..] == "l.JPG";
    }
  }

  /**
   * For a name `stem.ext` with a non-empty stem, ending in `.e` (with no
   * dot in `e`) means exactly that the extension is `e`.
   */
  lemma DotSuffixIff(stem: string, ext: string, e: string)
    requires stem != "" && '.' !in ext && '.' !in e
    ensures EndsWith(stem + "." + ext, "." + e) <==> ext == e
  {
    var s := stem + "." + ext;
    if EndsWith(s, "." + e) {
      var k := |s| - |e| - 1;
      assert s[k] == '.' && s[|stem|] == '.';
      assert forall j :: |stem| < j < |s| ==> s[j] == ext[j - |stem| - 1];
      assert forall j :: k < j < |s| ==> s[j] == ("." + e)[j - k];
      assert k == |stem|;
      assert s[k + 1..] == e;
      assert s[|stem| + 1..] == ext;
    }
  }

  /**
   * For an ordinary file path the suffix test agrees with the path's
   * extension: `png` selects PNG, `jpg` and `jpeg` select JPEG.
   */
  lemma SaveEncoderFollowsExtension(dir: string, stem: string, ext: string)
    requires stem != "" && '.' !in ext && IsFileName(stem + "." + ext)
    ensures Extension(dir + "/" + (stem + "." + ext)) == Some(ext)
    ensures SaveEncoder(dir + "/" + (stem + "." + ext)) == Ok(Png) <==> ext == "png"
    ensures SaveEncoder(dir + "/" + (stem + "." + ext)) == Ok(Jpeg) <==>
            ext == "jpg" || ext == "jpeg"
  {
    var name := stem + "." + ext;
    FileNameAfterSlash(dir, name);
    NameExtensionIff(name, ext);
    SuffixOfFilePath(dir, stem, ext, "png");
    SuffixOfFilePath(dir, stem, ext, "jpg");
    SuffixOfFilePath(dir, stem, ext, "jpeg");
    assert "." + "png" == ".png" && "." + "jpg" == ".jpg" && "." + "jpeg" == ".jpeg";
  }

  lemma SuffixOfFilePath(dir: string, stem: string, ext: string, e: string)
    requires stem != "" && '.' !in ext && '.' !in e && '/' !in e
    ensures EndsWith(dir + "/" + (stem + "." + ext), "." + e) <==> ext == e
  {
    DotSuffixIff(stem, ext, e);
    SuffixThroughSlash(dir, stem + "." + ext, "." + e);
  }

  /** A suffix without `/` is a suffix of `a/b` exactly when it is one of `b`. */
  lemma SuffixThroughSlash(a: string, b: string, suffix: string)
    requires '/' !in suffix
    ensures EndsWith(a + "/" + b, suffix) <==> EndsWith(b, suffix)
  {
    var s := a + "/" + b;
    if |suffix| <= |b| {
      assert s[|s| - |suffix|..] == b[|b| - |suffix|..];
    }
    if EndsWith(s, suffix) {
      assert s[|a|] == '/';
      assert forall j :: |s| - |suffix| <= j < |s| ==> s[j] == suffix[j - (|s| - |suffix|)];
    }
  }

  /**
   * Where the suffix test and `Path::extension` part ways: a hidden file
   * named `.png` has no extension, yet is saved as PNG.
   */
  lemma HiddenPngIsSavedAsPng()
    ensures Extension("/img/.png") == None
    ensures SaveEncoder("/img/.png") == Ok(Png)
  {
    assert "/img/.png" == "/img" + "/" + ".png";
    FileNameAfterSlash("/img", ".png");
    assert LastDot(".png") == Some(0) by {
      assert ".png"[..3] == ".pn";
      assert LastDot(".pn") == Some(0) by {
        assert ".pn"[..2] == ".p";
        assert LastDot(".p") == Some(0) by {
          assert ".p"[..1] == ".";
        }
      }
    }
    assert "/img/.png"[5..] == ".png";
  }
}

=== FILE: seqs.dfy ===
/**
 * Facts about sequence concatenation, stated once for any element type.
 * Proving them at the element type in use (strings of strings, say) makes
 * the solver compare elements it never needs to look at.
 */
module Seqs {

  lemma HeadCons<T>(s: seq<T>)
    requires 1 <= |s|
    ensures s == [s[0]] + s[1..]
  {
  }

  lemma ConcatHead<T>(a: seq<T>, b: seq<T>)
    requires 1 <= |a|
    ensures (a + b)[0] == a[0] && (a + b)[1..] == a[1..] + b
  {
  }

  lemma ConcatHead3<T>(a: seq<T>, b: seq<T>, c: seq<T>)
    requires 1 <= |a|
    ensures (a + b + c)[0] == a[0] && (a + b + c)[1..] == a[1..] + b + c
  {
  }

  lemma Pair<T>(a: T, b: T)
    ensures [a] + [b] == [a, b]
  {
  }

  lemma EmptyConcat<T>(a: seq<T>)
    ensures [] + a == a
  {
  }

  lemma ConcatEmpty<T>(a: seq<T>)
    ensures a + [] == a
  {
  }

  lemma ConcatSplit<T>(a: seq<T>, b: seq<T>, n: nat)
    requires n <= |a|
    ensures (a + b)[..n] == a[..n] && (a + b)[n..] == a[n..] + b
    ensures n < |a| ==> (a + b)[n] == a[n]
  {
  }

  lemma ConcatAssoc<T>(a: seq<T>, b: seq<T>, c: seq<T>)
    ensures a + b + c == a + (b + c)
  {
  }

  lemma PrefixCancel<T>(a: seq<T>, x: seq<T>, y: seq<T>)
    requires a + x == a + y
    ensures x == y
  {
    assert x == (a + x)[|a|..];
    assert y == (a + y)[|a|..];
  }

  lemma SuffixCancel<T>(x: seq<T>, y: seq<T>, a: seq<T>)
    requires x + a == y + a
    ensures x == y
  {
    assert x == (x + a)[..|x|];
    assert y == (y + a)[..|y|];
  }

  /** A slice of a suffix is a slice of the whole. */
  lemma SliceOfSuffix<T>(s: seq<T>, k: nat, n: nat)
    requires k + n <= |s|
    ensures s[k..][..n] == s[k..k + n] && s[k..][n..] == s[k + n..]
  {
  }

  /** Cutting a sequence in two and putting the halves back gives it back. */
  lemma SplitAt<T>(s: seq<T>, k: nat)
    requires k <= |s|
    ensures s[..k] + s[k..] == s
  {
  }
}

=== FILE: text.dfy ===
/**
 * String helpers shared by the model: prefix/suffix tests (Rust's
 * `starts_with`/`ends_with`), the whitespace class Rust's `str::trim` and
 * `str::split_whitespace` use, and the decimal rendering of an unsigned
 * integer that `format!("{}", n)` produces.
 */
module Text {

  predicate StartsWith(s: string, prefix: string) {
    |prefix| <= |s| && s[..|prefix|] == prefix
  }

  predicate EndsWith(s: string, suffix: string) {
    |suffix| <= |s| && s[|s| - |suffix|..] == suffix
  }

  lemma PrefixStartsWith(prefix: string, rest: string)
    ensures StartsWith(prefix + rest, prefix)
  {
  }

  lemma SuffixEndsWith(front: string, suffix: string)
    ensures EndsWith(front + suffix, suffix)
  {
  }

  /**
   * Rust's `char::is_whitespace`: the characters with the Unicode
   * White_Space property.
   */
  predicate IsWhitespace(c: char) {
    || ('\U{0009}' <= c <= '\U{000D}')
    || c == ' '
    || c == '\U{0085}'
    || c == '\U{00A0}'
    || c == '\U{1680}'
    || ('\U{2000}' <= c <= '\U{200A}')
    || c == '\U{2028}'
    || c == '\U{2029}'
    || c == '\U{202F}'
    || c == '\U{205F}'
    || c == '\U{3000}'
  }

  predicate NoWhitespace(s: string) {
    forall i :: 0 <= i < |s| ==> !IsWhitespace(s[i])
  }

  lemma NoWhitespaceConcat(a: string, b: string)
    ensures NoWhitespace(a + b) <==> NoWhitespace(a) && NoWhitespace(b)
  {
    if NoWhitespace(a + b) {
      assert forall i :: 0 <= i < |a| ==> a[i] == (a + b)[i];
      assert forall i :: 0 <= i < |b| ==> b[i] == (a + b)[i + |a|];
    }
  }

  /** Printable ASCII other than the space: `!` through `~`. */
  predicate AsciiGraphic(s: string) {
    forall i :: 0 <= i < |s| ==> '!' <= s[i] <= '~'
  }

  lemma AsciiGraphicNoWhitespace(s: string)
    requires AsciiGraphic(s)
    ensures NoWhitespace(s)
  {
  }

  predicate AllWhitespace(s: string) {
    forall i :: 0 <= i < |s| ==> IsWhitespace(s[i])
  }

  predicate IsDigit(c: char) {
    '0' <= c <= '9'
  }

  predicate AllDigits(s: string) {
    forall i :: 0 <= i < |s| ==> IsDigit(s[i])
  }

  function DigitChar(d: nat): (c: char)
    requires d < 10
    ensures IsDigit(c) && DigitValue(c) == d
  {
    "0123456789"[d]
  }

  function DigitValue(c: char): nat
    requires IsDigit(c)
  {
    c as int - '0' as int
  }

  /** The decimal text of `n`, most significant digit first, no leading zeros. */
  function Decimal(n: nat): (s: string)
    ensures 1 <= |s|
    ensures AllDigits(s)
    ensures s[0] == '0' ==> s == "0"
    ensures n < 10 <==> |s| == 1
  {
    if n < 10 then [DigitChar(n)] else Decimal(n / 10) + [DigitChar(n % 10)]
  }

  /** Reads a digit string back as a number (the inverse of `Decimal`). */
  function ParseDecimal(s: string): nat
    requires AllDigits(s)
  {
    if |s| == 0 then 0 else ParseDecimal(s[..|s| - 1]) * 10 + DigitValue(s[|s| - 1])
  }

  lemma {:induction false} DecimalRoundTrip(n: nat)
    ensures ParseDecimal(Decimal(n)) == n
  {
    if n >= 10 {
      var s := Decimal(n);
      assert s[..|s| - 1] == Decimal(n / 10);
      DecimalRoundTrip(n / 10);
    }
  }

  /** Distinct numbers render to distinct texts. */
  lemma DecimalInjective(m: nat, n: nat)
    ensures Decimal(m) == Decimal(n) ==> m == n
  {
    DecimalRoundTrip(m);
    DecimalRoundTrip(n);
  }
}

=== FILE: tokenize.dfy ===
/**
 * The pure front half of `LinuxWallpaperCommand::execute`
 * (src-tauri/src/wallpaper.rs): the command text is trimmed and split on
 * whitespace; the first piece names the program, the rest are its
 * arguments. No shell is involved, so quotes and backslashes are ordinary
 * characters to this split.
 */
module Tokenize {
  import opened Text
  import opened Outcomes
  import opened Seqs

  /** A piece `split_whitespace` can yield: non-empty, no whitespace inside. */
  predicate IsWord(w: string) {
    0 < |w| && NoWhitespace(w)
  }

  predicate AllWords(ws: seq<string>) {
    forall i :: 0 <= i < |ws| ==> IsWord(ws[i])
  }

  /** The length of the run of non-whitespace characters `s` starts with. */
  function RunLength(s: string): (n: nat)
    requires 0 < |s| && !IsWhitespace(s[0])
    ensures 1 <= n <= |s|
    ensures NoWhitespace(s[..n])
    ensures n < |s| ==> IsWhitespace(s[n])
    decreases |s|
  {
    if |s| == 1 || IsWhitespace(s[1]) then 1 else 1 + RunLength(s[1..])
  }

  /** Rust's `str::split_whitespace`: the maximal non-whitespace runs, in order. */
  function Words(s: string): (ws: seq<string>)
    ensures AllWords(ws)
    decreases |s|
  {
    if |s| == 0 then []
    else if IsWhitespace(s[0]) then Words(s[1..])
    else
      var n := RunLength(s);
      [s[..n]] + Words(s[n..])
  }

  /** Rust's `str::trim_start`. */
  function TrimStart(s: string): (r: string)
    ensures |r| <= |s| && r == s[|s| - |r|..]
    ensures AllWhitespace(s[..|s| - |r|])
    ensures |r| == 0 || !IsWhitespace(r[0])
  {
    if |s| == 0 || !IsWhitespace(s[0]) then s
    else
      var r := TrimStart(s[1..]);
      assert s[..|s| - |r|] == [s[0]] + s[1..][..|s| - 1 - |r|];
      r
  }

  /** Rust's `str::trim_end`. */
  function TrimEnd(s: string): (r: string)
    ensures |r| <= |s| && r == s[..|r|]
    ensures AllWhitespace(s[|r|..])
    ensures |r| == 0 || !IsWhitespace(r[|r| - 1])
  {
    if |s| == 0 || !IsWhitespace(s[|s| - 1]) then s
    else
      var r := TrimEnd(s[..|s| - 1]);
      assert s[|r|..] == s[..|s| - 1][|r|..] + [s[|s| - 1]];
      r
  }

  /** How many whitespace characters `trim_start` cuts off the front. */
  function LeadCut(s: string): (k: nat)
    ensures k <= |s| && TrimStart(s) == s[k..] && AllWhitespace(s[..k])
  {
    |s| - |TrimStart(s)|
  }

  /**
   * `r` is what is left of `s` once the `k` whitespace characters at its
   * front and the whitespace at its back are cut off: a middle slice that
   * neither starts nor ends with whitespace.
   */
  predicate TrimmedSlice(s: string, k: nat, r: string) {
    && k + |r| <= |s| && r == s[k..k + |r|]
    && AllWhitespace(s[..k]) && AllWhitespace(s[k + |r|..])
    && (|r| == 0 || (!IsWhitespace(r[0]) && !IsWhitespace(r[|r| - 1])))
  }

  /**
   * Rust's `str::trim`: the middle slice of `s` left once the whitespace at
   * both ends is cut off. Splitting it into words gives the same words as
   * splitting `s`.
   */
  function Trim(s: string): (r: string)
    ensures TrimmedSlice(s, LeadCut(s), r)
    ensures Words(r) == Words(s)
  {
    var r := TrimEnd(TrimStart(s));
    TrimFacts(s, r);
    r
  }

  lemma TrimFacts(s: string, r: string)
    requires r == TrimEnd(TrimStart(s))
    ensures TrimmedSlice(s, LeadCut(s), r)
    ensures Words(r) == Words(s)
  {
    TrimMiddle(s, TrimStart(s), r, LeadCut(s));
    WordsTrimStart(s, TrimStart(s));
    WordsTrimEnd(TrimStart(s), r);
  }

  lemma TrimMiddle(s: string, t: string, r: string, k: nat)
    requires k <= |s| && t == s[k..] && (|t| == 0 || !IsWhitespace(t[0])) && r == TrimEnd(t)
    ensures k + |r| <= |s| && r == s[k..k + |r|] && AllWhitespace(s[k + |r|..])
    ensures |r| == 0 || (!IsWhitespace(r[0]) && !IsWhitespace(r[|r| - 1]))
  {
    SliceOfSuffix(s, k, |r|);
    var w := t[|r|..];
    assert AllWhitespace(w);
    assert w == s[k + |r|..];
    if |r| > 0 {
      assert r[0] == t[0];
    }
  }

  /** A program to start and the arguments to hand it. */
  datatype Argv = Argv(program: string, args: seq<string>)

  /** The characters of `s` that are not whitespace, in order. */
  function Visible(s: string): string {
    if |s| == 0 then [] else (if IsWhitespace(s[0]) then [] else [s[0]]) + Visible(s[1..])
  }

  function Concat(ws: seq<string>): string {
    if |ws| == 0 then [] else ws[0] + Concat(ws[1..])
  }

  /**
   * `command.trim().split_whitespace()`, then `next().ok_or("Command was
   * empty")` for the program and `collect()` for the arguments. The pieces
   * are non-empty and whitespace-free, and together they hold every
   * non-whitespace character of the command, in order.
   */
  function Tokenise(command: string): (r: Result<Argv, string>)
    ensures r.Err? <==> AllWhitespace(command)
    ensures r.Err? ==> r.error == "Command was empty"
    ensures r.Ok? ==> IsWord(r.value.program) && AllWords(r.value.args)
    ensures r.Ok? ==> r.value.program + Concat(r.value.args) == Visible(command)
  {
    var words := Words(Trim(command));
    WordsEmpty(command);
    WordsVisible(command);
    if |words| == 0 then Err("Command was empty")
    else
      assert words == [words[0]] + words[1..];
      Ok(Argv(words[0], words[1..]))
  }

  /** `Tokenise` reads its result straight off the whitespace split. */
  lemma TokeniseOfSplit(command: string)
    ensures var ws := Words(command);
      Tokenise(command) == if ws == [] then Err("Command was empty") else Ok(Argv(ws[0], ws[1..]))
  {
  }

  // ---- facts about Words ----

  lemma WordsSkip(s: string)
    requires 0 < |s| && IsWhitespace(s[0])
    ensures Words(s) == Words(s[1..])
  {
  }

  lemma WordsRun(s: string)
    requires 0 < |s| && !IsWhitespace(s[0])
    ensures Words(s) == [s[..RunLength(s)]] + Words(s[RunLength(s)..])
  {
  }

  lemma {:induction false} WordsEmpty(s: string)
    ensures Words(s) == [] <==> AllWhitespace(s)
    decreases |s|
  {
    if |s| != 0 {
      WordsEmpty(s[1..]);
      if IsWhitespace(s[0]) {
        assert AllWhitespace(s) <==> AllWhitespace(s[1..]) by {
          if AllWhitespace(s[1..]) {
            assert forall i :: 1 <= i < |s| ==> s[i] == s[1..][i - 1];
          }
        }
      }
    }
  }

  lemma {:induction false} VisibleConcat(a: string, b: string)
    ensures Visible(a + b) == Visible(a) + Visible(b)
  {
    if |a| == 0 {
      assert a + b == b;
    } else {
      assert (a + b)[1..] == a[1..] + b;
      VisibleConcat(a[1..], b);
    }
  }

  lemma {:induction false} VisibleOfWord(w: string)
    requires NoWhitespace(w)
    ensures Visible(w) == w
  {
    if |w| != 0 {
      VisibleOfWord(w[1..]);
      assert w == [w[0]] + w[1..];
    }
  }

  lemma {:induction false} WordsVisible(s: string)
    ensures Concat(Words(s)) == Visible(s)
    decreases |s|
  {
    if |s| != 0 {
      if IsWhitespace(s[0]) {
        WordsVisible(s[1..]);
      } else {
        var n := RunLength(s);
        WordsVisible(s[n..]);
        var ws := [s[..n]] + Words(s[n..]);
        assert ws[1..] == Words(s[n..]);
        assert s == s[..n] + s[n..];
        VisibleConcat(s[..n], s[n..]);
        VisibleOfWord(s[..n]);
      }
    }
  }

  /** Leading whitespace never changes the split. */
  lemma {:induction false} WordsAfterWhitespace(a: string, b: string)
    requires AllWhitespace(a)
    ensures Words(a + b) == Words(b)
  {
    if |a| == 0 {
      assert a + b == b;
    } else {
      assert (a + b)[0] == a[0];
      assert IsWhitespace(a[0]);
      assert (a + b)[1..] == a[1..] + b;
      WordsSkip(a + b);
      assert AllWhitespace(a[1..]) by {
        forall i | 0 <= i < |a| - 1 ensures IsWhitespace(a[1..][i]) {
          assert a[1..][i] == a[i + 1];
        }
      }
      WordsAfterWhitespace(a[1..], b);
    }
  }

  /** A run that ends inside `a` ends at the same place inside `a + b`. */
  lemma {:induction false} RunLengthPrefix(a: string, b: string)
    requires 0 < |a| && !IsWhitespace(a[0])
    requires RunLength(a) < |a| || |b| == 0 || IsWhitespace(b[0])
    ensures RunLength(a + b) == RunLength(a)
    decreases |a|
  {
    if |a| == 1 {
      if |b| != 0 { assert (a + b)[1] == b[0]; }
    } else {
      assert (a + b)[1] == a[1];
      if !IsWhitespace(a[1]) {
        assert (a + b)[1..] == a[1..] + b;
        RunLengthPrefix(a[1..], b);
      }
    }
  }

  /** Trailing whitespace never changes the split. */
  lemma {:induction false} WordsBeforeWhitespace(a: string, b: string)
    requires AllWhitespace(b)
    ensures Words(a + b) == Words(a)
    decreases |a|
  {
    if |a| == 0 {
      assert a + b == b;
      WordsEmpty(b);
    } else {
      assert (a + b)[0] == a[0];
      if IsWhitespace(a[0]) {
        assert (a + b)[1..] == a[1..] + b;
        WordsBeforeWhitespace(a[1..], b);
      } else {
        var n := RunLength(a);
        RunLengthPrefix(a, b);
        assert (a + b)[..n] == a[..n];
        assert (a + b)[n..] == a[n..] + b;
        WordsBeforeWhitespace(a[n..], b);
      }
    }
  }

  lemma WordsTrimStart(s: string, t: string)
    requires t == TrimStart(s)
    ensures Words(t) == Words(s)
  {
    var k := LeadCut(s);
    SplitAt(s, k);
    WordsAfterWhitespace(s[..k], s[k..]);
  }

  lemma WordsTrimEnd(t: string, u: string)
    requires u == TrimEnd(t)
    ensures Words(u) == Words(t)
  {
    SplitAt(t, |u|);
    WordsBeforeWhitespace(t[..|u|], t[|u|..]);
  }

  /**
   * Text that ends in whitespace splits independently of what follows it.
   */
  lemma {:induction false} WordsAppend(a: string, b: string)
    requires 0 < |a| && IsWhitespace(a[|a| - 1])
    ensures Words(a + b) == Words(a) + Words(b)
    decreases |a|
  {
    if IsWhitespace(a[0]) {
      if |a| == 1 {
        AppendStepLast(a, b);
      } else {
        WordsAppend(a[1..], b);
        AppendStepSpace(a, b);
      }
    } else {
      var n := RunLength(a);
      assert a[..n][n - 1] == a[n - 1];
      WordsAppend(a[n..], b);
      AppendStepRun(a, b);
    }
  }

  /** The last step of `WordsAppend`: a single whitespace character. */
  lemma AppendStepLast(a: string, b: string)
    requires |a| == 1 && IsWhitespace(a[0])
    ensures Words(a + b) == Words(a) + Words(b)
  {
    assert AllWhitespace(a);
    WordsAfterWhitespace(a, b);
    WordsEmpty(a);
    EmptyConcat(Words(b));
  }

  /** One step of `WordsAppend` past a leading whitespace character. */
  lemma AppendStepSpace(a: string, b: string)
    requires 1 < |a| && IsWhitespace(a[0])
    requires Words(a[1..] + b) == Words(a[1..]) + Words(b)
    ensures Words(a + b) == Words(a) + Words(b)
  {
    var ab := a + b;
    ConcatHead(a, b);
    WordsSkip(ab);
    WordsSkip(a);
  }

  /** One step of `WordsAppend` past a leading run that ends inside `a`. */
  lemma AppendStepRun(a: string, b: string)
    requires 0 < |a| && !IsWhitespace(a[0]) && RunLength(a) < |a|
    requires Words(a[RunLength(a)..] + b) == Words(a[RunLength(a)..]) + Words(b)
    ensures Words(a + b) == Words(a) + Words(b)
  {
    var ab := a + b;
    var n := RunLength(a);
    ConcatSplit(a, b, n);
    RunLengthPrefix(a, b);
    WordsRun(ab);
    WordsRun(a);
    ConcatAssoc([a[..n]], Words(a[n..]), Words(b));
  }

  /** A whitespace character separates what stands on either side of it. */
  lemma WordsSeparated(a: string, c: char, b: string)
    requires IsWhitespace(c)
    ensures Words(a + [c] + b) == Words(a) + Words(b)
  {
    WordsAppend(a + [c], b);
    WordsBeforeWhitespace(a, [c]);
  }

  /** A string splits into itself alone exactly when it is one word. */
  lemma WordsOfWord(w: string)
    requires IsWord(w)
    ensures Words(w) == [w]
  {
    var n := RunLength(w);
    assert n == |w|;
    assert w[..n] == w && w[n..] == [];
    WordsRun(w);
  }

  lemma WordsSingle(w: string)
    ensures Words(w) == [w] <==> IsWord(w)
  {
    if IsWord(w) {
      WordsOfWord(w);
    }
    var ws := Words(w);
    assert 0 < |ws| ==> IsWord(ws[0]);
  }

  /** Words joined by single spaces. */
  function Unwords(ws: seq<string>): string {
    if |ws| == 0 then ""
    else if |ws| == 1 then ws[0]
    else ws[0] + " " + Unwords(ws[1..])
  }

  /** Round trip: splitting words joined by spaces gives the words back. */
  lemma {:induction false} WordsUnwords(ws: seq<string>)
    requires AllWords(ws)
    ensures Words(Unwords(ws)) == ws
  {
    if |ws| == 1 {
      WordsSingle(ws[0]);
    } else if |ws| > 1 {
      WordsUnwords(ws[1..]);
      WordsSingle(ws[0]);
      WordsSeparated(ws[0], ' ', Unwords(ws[1..]));
      assert ws[0] + " " + Unwords(ws[1..]) == ws[0] + [' '] + Unwords(ws[1..]);
      assert ws == [ws[0]] + ws[1..];
    }
  }

  /** Joining two non-empty lists puts one space between their joins. */
  lemma {:induction false} UnwordsConcat(a: seq<string>, b: seq<string>)
    requires 1 <= |a| && 1 <= |b|
    ensures Unwords(a + b) == Unwords(a) + " " + Unwords(b)
  {
    if |a| > 1 {
      assert (a + b)[1..] == a[1..] + b;
      UnwordsConcat(a[1..], b);
    }
  }

  lemma AllWordsConcat(a: seq<string>, b: seq<string>)
    ensures AllWords(a + b) <==> AllWords(a) && AllWords(b)
  {
    if AllWords(a + b) {
      assert forall i :: 0 <= i < |a| ==> a[i] == (a + b)[i];
      assert forall i :: 0 <= i < |b| ==> b[i] == (a + b)[i + |a|];
    }
  }

  /**
   * The split knows nothing of backslash escapes: an escaped space still
   * separates two arguments, and the backslash stays on the first.
   */
  lemma EscapedSpaceSplits()
    ensures Tokenise("a\\ b") == Ok(Argv("a\\", ["b"]))
  {
    var w, v := "a\\", "b";
    WordsOfWord(w);
    WordsOfWord(v);
    WordsSeparated(w, ' ', v);
    assert "a\\ b" == w + [' '] + v;
    TokeniseOfSplit("a\\ b");
    assert [w] + [v] == [w, v];
  }
}
